=== FILE: README.md ===
# Transcript processor: a Dafny model of the text-to-record pipeline

This project models the pure data pipeline of `transcript_processor.py`. It
covers everything between the two cloud calls: what happens to the extracted
transcript text and to the language model's reply.

- **Records** (`records.dfy`). These are the dataclasses `Course`,
  `StudentInfo` and `TranscriptData`, with `Option<string>` fields.
  `Course(**kw)` and `StudentInfo(**kw)` are modelled as `MakeCourse` and
  `MakeStudent`. Either one rejects a keyword that is not a field.
- **Reply cleanup** (`sanitizer.dfy`). The reply is rejected if it is missing
  or blank. Otherwise it is trimmed, a literal "```json" opening and a "```"
  closing are dropped, and it is trimmed again.
- **Field mapper** (`mapper.dfy`). `map_to_transcript_fields` takes two
  inputs:
  - the chat call's outcome, as `Completion`;
  - `json.loads`, as an input function `loads`. It yields `None` where
    Python raises.

  The mapper sets the string "null" to `None` in the top level of the
  student object and of each course object. It builds the records and fills
  in the `.get(..., {})` / `.get(..., [])` defaults. Every failure falls back
  to the heuristic parse.
- **Heuristic fallback** (`heuristic.dfy`). This is `_basic_text_parsing`, a
  keyword scan over the text's lines. The course lines are kept in order, and
  the last qualifying name line wins.
- **Credit totals** (`summary.dfy`). This is `_calculate_summary_statistics`.
  Each credit value is cleaned of spaces and the words "credits"/"credit",
  and is counted when what remains is a numeral. When `float` raises, the
  rest of that course is skipped.
- **Standardized document** (`standardizer.dfy`, `pipeline.dfy`). This is
  `to_standardized_json`, plus the merge in `generate_standardized_json` that
  fills in the metadata and the two totals.
- **Python string operations** (`text.dfy`). `strip`, `split('\n')`,
  `split()`, `lower`, `in`, `startswith`, `endswith` and `replace(old, "")`
  are written out over `string`. `strip`, `split`, `in` and `replace` are
  tied to independent characterisations by lemmas (`StripShape`,
  `JoinSplit`/`SplitJoin`, `ContainsAt`, and `RemoveCharCount` for
  one-character patterns). Removal of a longer pattern is pinned by
  `RemoveAllAbsent` and `RemoveAllSkip`, and by the unit lemmas of the
  credit cleaning. `lower` is
  characterised character by character in its own contract. `startswith`
  and `endswith` are the slice comparisons themselves.

Two behaviours of the reply cleanup are worth stating outright, because the
model keeps them as the code has them:

- The cleanup is not idempotent. `Sanitizer.NotIdempotent` shows that
  "```json```json x```" is cleaned to "```json x", which a second pass
  changes again, to "x".
- Only the exact seven characters "```json" are dropped at the front. A bare
  "```" opening, or "```JSON", stays in place.

## Model

| member | source | states |
|---|---|---|
| Records.MakeCourse | transcript_processor.py:30-41 | `Course(**kw)` succeeds exactly when every keyword is a declared field holding a string or `null`; then each field holds its keyword's string, and a missing keyword gives `None` |
| Records.MakeStudent | transcript_processor.py:43-53 | `StudentInfo(**kw)`, with the same rules over the eight student fields |
| Sanitizer.Unfence | transcript_processor.py:298-301 | the length never grows, and text with neither a "```json" opening nor a "```" closing is returned unchanged; what happens with an opening, a closing or both is stated by `UnfenceFenced`, `UnfenceOpeningOnly`, `UnfenceClosingOnly` and `UnfenceDoubled` |
| Sanitizer.Sanitize | transcript_processor.py:293-302 | the reply is rejected exactly when it is missing or all whitespace; the cleaned text is stripped and no longer than the trimmed reply, and equals the trimmed reply when that has no fence at either end |
| Sanitizer.CleanReplyUnchanged | transcript_processor.py:297-302 | non-empty, trimmed, unfenced JSON text passes through unchanged |
| Sanitizer.UnfenceFenced | transcript_processor.py:298-301 | "```json" + s + "```" unfences to s for every s |
| Sanitizer.FencedReplyUnwrapped | transcript_processor.py:297-302 | any trimmed body wrapped in a "```json" ... "```" block, with any whitespace around and inside the fences, is cleaned to exactly that body |
| Sanitizer.UnfenceDoubled | transcript_processor.py:298-301 | for every x, "```json" + "```json" + x + "```" unfences to "```json" + x: only the first opening is cut |
| Sanitizer.UnfenceOpeningOnly | transcript_processor.py:298-301 | for every x that does not end in "```", an opening "```json" in front of x is removed and nothing else |
| Sanitizer.UnfenceClosingOnly | transcript_processor.py:298-301 | for every x such that x + "```" does not start with "```json", the closing "```" is removed even though there is no opening |
| Sanitizer.NotIdempotent | transcript_processor.py:297-302 | cleaning "```json```json x```" gives "```json x", which a second cleaning turns into "x" |
| Text.TrimStart | transcript_processor.py:297 | left trimming never makes the text longer |
| Text.TrimStartShape | transcript_processor.py:297 | left trimming leaves a suffix that does not start with whitespace, and everything it removed is whitespace |
| Text.TrimEnd | transcript_processor.py:302 | right trimming never makes the text longer |
| Text.TrimEndShape | transcript_processor.py:302 | right trimming leaves a prefix that does not end with whitespace, and everything it removed is whitespace |
| Text.Strip | transcript_processor.py:364 | `strip()` never makes the text longer |
| Text.StripIsStripped | transcript_processor.py:364 | the result of `strip()` neither starts nor ends with whitespace |
| Text.StripShape | transcript_processor.py:364 | `strip()` returns a contiguous piece of its input with only whitespace on either side |
| Text.StripOfStripped | transcript_processor.py:302 | text without whitespace at either end is its own `strip()` |
| Text.StripIdempotent | transcript_processor.py:302 | stripping twice is stripping once |
| Text.StripEmptyIff | transcript_processor.py:293 | `s.strip() == ""` exactly when every character of `s` is whitespace |
| Text.TrimStartAround | transcript_processor.py:297 | left trimming removes exactly a whitespace prefix that stands before a non-space character |
| Text.TrimEndAround | transcript_processor.py:302 | right trimming removes exactly a whitespace suffix that stands after a non-space character |
| Text.StripAround | transcript_processor.py:297-302 | stripping whitespace that surrounds trimmed, non-empty text gives that text back |
| Text.ContainsAt | transcript_processor.py:369 | the `in` test holds exactly when the needle occurs at some position |
| Text.AbsentFirstChar | transcript_processor.py:395 | text that lacks the needle's first character does not contain the needle |
| Text.Lower | transcript_processor.py:369 | lowering keeps the length, turns each ASCII capital into the small letter 32 code points above it, and changes no other character |
| Text.LowerIdempotent | transcript_processor.py:376 | lowering twice is lowering once |
| Text.Split | transcript_processor.py:361 | `split('\n')` always yields at least one piece, and no piece contains the separator |
| Text.JoinSplit | transcript_processor.py:361 | joining the pieces with the separator gives the text back |
| Text.SplitPrefix | transcript_processor.py:361 | text without the separator, followed by the separator, splits into that text plus the split of the rest |
| Text.SplitJoin | transcript_processor.py:361 | pieces without the separator, once joined, split back into the same pieces |
| Text.WordPrefix | transcript_processor.py:371 | the first token is the longest run of non-whitespace characters at the front of the text |
| Text.Words | transcript_processor.py:371 | `split()` yields only non-empty tokens |
| Text.WordsNonEmpty | transcript_processor.py:371 | text with a non-space character yields at least one token |
| Text.TwoWordsIff | transcript_processor.py:371-372 | a stripped, non-empty line has at least two tokens exactly when it contains whitespace |
| Text.RemoveAll | transcript_processor.py:395 | `replace(pat, "")` never makes the text longer and introduces no new character |
| Text.RemoveAllAbsent | transcript_processor.py:395 | text without the pattern passes through unchanged |
| Text.RemoveAllSkip | transcript_processor.py:395 | a leading piece that lacks the pattern's first character passes through unchanged, and removal continues on the rest |
| Text.RemoveCharCount | transcript_processor.py:396 | deleting a character removes exactly its occurrences and keeps every other character |
| Heuristic.Selected | transcript_processor.py:376-377 | one line contributes at most one course line |
| Heuristic.Matches | transcript_processor.py:376-377 | the reference filter against which the loop is judged: its meaning (which lines, in which order) is what `MatchesMembers` and `MatchesAppend` prove; its own contract only bounds its length by the number of lines |
| Heuristic.MatchesMembers | transcript_processor.py:364-377 | a string is a selected line exactly when some line strips to it and passes the test |
| Heuristic.MatchesAppend | transcript_processor.py:363-377 | selection distributes over concatenation, so the course lines keep the order of the text |
| Heuristic.MatchesEmptyIff | transcript_processor.py:376-377 | nothing is selected exactly when no line passes the test |
| Heuristic.ScanLines | transcript_processor.py:361-377 | the loop's course lines are exactly the selected lines, and a name line is recorded exactly when some line passes the name test |
| Heuristic.LastHitAtExtend | transcript_processor.py:369-373 | appending a line that fails the name test keeps the last passing line |
| Heuristic.LastHit | transcript_processor.py:369-373 | the recorded name line is the stripped form of the last line that passes the name test |
| Heuristic.BasicTextParsing | transcript_processor.py:351-384 | no student fields, no courses, `raw_text` is the input; `potential_course_lines` is present exactly when some line passes the course keywords, and then holds all such lines in order; `potential_name_line` is present exactly when some line passes the name test, and then holds the last one |
| Heuristic.NameTestIff | transcript_processor.py:369-373 | for a stripped line, the name test is "mentions a name keyword and contains whitespace" |
| Json.Strings | transcript_processor.py:377 | a list of strings becomes an array of the same length, with the same strings in order |
| Mapper.NormalizeNulls | transcript_processor.py:322-323 | the key set is kept, a value becomes `null` exactly when it was `null` or "null", and every other value is unchanged |
| Mapper.NormalizeLeavesNoNullString | transcript_processor.py:330-331 | no value is the string "null" after normalisation |
| Mapper.NormalizeIdempotent | transcript_processor.py:322-323 | normalising twice is normalising once |
| Mapper.NormalizeExample | test_json_fixes.py:35-40 | `{None, "null", "123"}` becomes `{None, None, "123"}` |
| Mapper.TextOfNormalized | transcript_processor.py:322-324 | after normalisation, a field reads the key's string unless the key is missing, `null` or "null" |
| Mapper.AcceptsNormalized | transcript_processor.py:330-332 | normalisation neither causes nor cures a constructor failure |
| Mapper.CourseFrom | transcript_processor.py:330-332 | a course item gives a course exactly when it is an object that `Course(**...)` accepts, and each field then reads the item's string unless it is `null` or "null" |
| Mapper.CoursesOf | transcript_processor.py:327-332 | the course loop succeeds exactly when every item is such an object; it then yields one course per item, in order, field by field |
| Mapper.CoursesFrom | transcript_processor.py:328 | a missing `courses` gives no courses; so do `""` and `{}`; an array is mapped item by item; every other value fails |
| Mapper.StudentFrom | transcript_processor.py:320-324 | `student_info` succeeds exactly when it is missing or is an accepted object; each field then reads its string, so a missing `student_info` gives all `None` |
| Mapper.FromObject | transcript_processor.py:320-341 | construction succeeds exactly when the parsed object is well formed; `raw_text` is the input text, and `additional_info` is the object's value verbatim, or `{}` when absent |
| Mapper.ModelPath | transcript_processor.py:230-341 | the model path succeeds exactly when the reply parses to a well-formed object. It fails with no client, when the call raises, and when the reply is missing or blank |
| Mapper.MapToTranscriptFields | transcript_processor.py:226-349 | `raw_text` is always the input. The result is the heuristic parse unless the reply parses to a well-formed object. In that case the student fields, the courses (same count and order as the array) and `additional_info` come from that object |
| Mapper.FallbackWithoutClient | transcript_processor.py:230-232 | with no client the result is the heuristic parse |
| Mapper.FallbackOnBlankReply | transcript_processor.py:293-294 | a missing or blank reply gives the heuristic parse |
| Mapper.FallbackOnNonObject | transcript_processor.py:308-317 | a reply that does not parse, or parses to a non-object, gives the heuristic parse |
| Mapper.FallbackOnStudentNotObject | transcript_processor.py:320-323 | a `student_info` that is present but not an object gives the heuristic parse |
| Mapper.FallbackOnUnknownStudentKey | transcript_processor.py:324 | an unknown key in `student_info` gives the heuristic parse |
| Mapper.FallbackOnUnknownCourseKey | transcript_processor.py:332 | an unknown key in any course object gives the heuristic parse |
| Mapper.MissingKeysDefault | transcript_processor.py:320-334 | a missing `student_info` gives all-`None` fields, missing `courses` gives no courses, and missing `additional_info` gives `{}` |
| Summary.CleanCredit | transcript_processor.py:395 | cleaning never lengthens the value, leaves no space, and introduces no new character |
| Summary.CleanPlain | transcript_processor.py:395 | a value with no space and no 'c' is already clean |
| Summary.CleanWithUnit | transcript_processor.py:395 | a value followed by " credits" cleans to the value |
| Summary.CleanWithSingularUnit | transcript_processor.py:395 | a value followed by " credit" cleans to the value: the third `replace` removes the singular unit |
| Summary.DigitTestIff | transcript_processor.py:396 | `replace('.', '').isdigit()` holds exactly for digits and dots with at least one digit |
| Summary.ReadCredit | transcript_processor.py:393-397 | a value is counted exactly when, once cleaned, it is a numeral with at most one dot, and then as the number `DecimalValue` reads from the cleaned text; `float` raises exactly on a numeral with two or more dots; a counted amount is never negative |
| Summary.DigitsValueAppend | transcript_processor.py:397 | the digits of `a` followed by those of `b` spell `a` shifted left by the length of `b`, plus `b` |
| Summary.WholeValue | transcript_processor.py:397 | `float` of a numeral without a dot is the whole number its digits spell |
| Summary.FractionValue | transcript_processor.py:397 | `float` of `a.b` is `a` plus the digits of `b` divided by ten to the number of those digits |
| Summary.ReadWhole | transcript_processor.py:393-397 | a credit value made of ASCII digits counts as the whole number they spell |
| Summary.ReadFraction | transcript_processor.py:393-397 | a credit value `a.b` of ASCII digits, with at least one digit, counts as `a` plus `b` scaled down by its number of digits |
| Summary.CourseCredits | transcript_processor.py:391-406 | when `float` raises on the attempted value, the course adds nothing, not even its earned credits; otherwise it adds what each of its two values reads as |
| Summary.Totals | transcript_processor.py:388-406 | both running totals are never negative |
| Summary.TotalsAppend | transcript_processor.py:391-406 | the totals of two course lists, concatenated, are the sums of their totals |
| Summary.CalculateSummaryStatistics | transcript_processor.py:408-411 | each published total is blank exactly when its sum is zero, and otherwise carries the sum |
| Summary.ReadTwoDots | transcript_processor.py:396-397 | "1.2.3" passes the digit test, and `float` raises on it |
| Summary.ReadThreeAndAHalf | transcript_processor.py:395-397 | "3.5 credits" reads as 3.5 |
| Summary.CreditsExample | transcript_processor.py:391-397 | the attempted values "3", "3.5 credits", "N/A", "" and "4" total 10.5 |
| Summary.RaisingValueSkipsRest | transcript_processor.py:392-406 | "1.2.3" as the attempted value loses the course's earned credits; as the earned value it keeps the attempted credits |
| Standardizer.JoinedName | transcript_processor.py:77 | the joined name is stripped and no longer than its parts plus the space |
| Standardizer.JoinedBoth | transcript_processor.py:77 | two trimmed, non-empty names are joined by exactly one space |
| Standardizer.JoinedFirstOnly | transcript_processor.py:77 | with no last name, the full name is the trimmed first name |
| Standardizer.JoinedSecondOnly | transcript_processor.py:99 | with no semester, the academic period is the trimmed year |
| Standardizer.JoinedNeither | transcript_processor.py:77 | with neither part, the result is "" |
| Standardizer.FullNameExamples | transcript_processor.py:77 | ("Jane", None) gives "Jane", and (None, None) gives "" |
| Standardizer.StandardCourse | transcript_processor.py:90-111 | every course field appears, with `None` as ""; the title equals the description; the academic period joins semester and year; the credit type is "standard", the grade points "" and the grade status "completed" |
| Standardizer.StandardStudent | transcript_processor.py:73-86 | every student field appears, with `None` as "", and the full name joins the first and last names |
| Standardizer.ToStandardized | transcript_processor.py:64-132 | `total_courses` equals the number of courses, in both places. `text_length` is the text's length. The courses keep their count and order. The version is "1.0" and the timestamp, source and totals are blank. The lists are empty, and the extracted fields are `additional_info` |
| Standardizer.GenerateStandardized | transcript_processor.py:466-483 | the merge sets the timestamp, the source label and the two credit totals; every other part is the standardized record unchanged |
| Pipeline.Process | transcript_processor.py:466-483 | the document always carries the input text and its length, and counts its own courses in both places |
| Pipeline.FallbackDocument | transcript_processor.py:346-349 | with no usable reply the document has no courses, blank names and totals, and the heuristic findings as extracted fields |

## Left out

- Records.MakeStudent: a non-string value such as `{"gpa": 3.5}` makes the model fail. The source's `StudentInfo(**kw)` does not check types and would keep the AI record with 3.5 in it. The model instead falls back to the heuristic parse. The fields stay `Option<string>`.
- Records.MakeCourse: the same applies to a non-string course value such as `{"credits": 3}`. The source keeps the AI record; it would later skip that course's credits when `.replace` raises `AttributeError`. The model falls back.
- Text.Lower: lower-cases only ASCII letters. Python's `str.lower` also maps other alphabets, which only matters for keyword tests on non-ASCII text.
- Summary.ReadCredit: a digit is an ASCII digit. Python's `isdigit` also accepts other Unicode digits, some of which `float` then rejects.
- Summary.CalculateSummaryStatistics: totals are exact rationals. Python accumulates `float`s and publishes `str(total)`, e.g. "10.5" or "7.0". The model states only the zero-versus-blank rule and the exact sum.
- `additional_info` and every JSON object are maps. Python dicts keep insertion order, so the order of keys in the output is not modelled. Duplicate keys in the reply are resolved by the parser, which is an input.
- The Azure Document Intelligence and OpenAI clients are not modelled: configuration loading, environment variables and PDF text extraction. The chat call is reduced to its outcome (`Completion`), and the prompt text is not modelled.
- `json.loads` is an input function. Its parsing rules are not modelled.
- `datetime.now()` and `os.path.basename` in `generate_standardized_json` are not modelled; the timestamp and the source label are parameters.
- Logging, `process_transcript`'s file-existence check, `display_results` and `main` are not modelled. Their job is I/O.
- `MapError` names which exception sent the model path to the fallback. The source logs that exception and does not return it, so it is not observable.

=== FILE: heuristic.dfy ===
/** The keyword-driven fallback extractor `_basic_text_parsing`: it leaves
    the student record empty and the course list empty, and reports what it
    noticed under two keys of `additional_info`.

    The line scan is written once over two line tests `isName` and
    `isCourse`, and instantiated with the source's keyword tests
    `NameTest` and `CourseTest`. */
module Heuristic {
  import opened Wrappers
  import opened Text
  import opened Json
  import opened Records

  const NameLineKey := "potential_name_line"
  const CourseLinesKey := "potential_course_lines"

  /** The line, lower-cased, contains one of the identity keywords. */
  predicate MentionsName(line: string) {
    var l := Lower(line);
    Contains(l, "name:") || Contains(l, "student name") || Contains(l, "student:")
  }

  /** The line, lower-cased, contains one of the course keywords. */
  predicate MentionsCourse(line: string) {
    var l := Lower(line);
    Contains(l, "course") || Contains(l, "class") || Contains(l, "grade") || Contains(l, "credit")
  }

  /** The two nested tests that make a line the potential name line. */
  predicate NameTest(line: string) {
    MentionsName(line) && |Words(line)| >= 2
  }

  /** The test that makes a line a potential course line. */
  predicate CourseTest(line: string) {
    MentionsCourse(line)
  }

  /** The raw line is not blank once stripped, and its stripped form
      passes `p`. */
  predicate Hit(raw: string, p: string -> bool) {
    Strip(raw) != [] && p(Strip(raw))
  }

  /** What the scan has gathered so far. */
  datatype Scan = Scan(nameLine: Option<string>, courseLines: seq<string>)

  /** One pass of the loop body over the raw line `raw`. */
  function Step(acc: Scan, raw: string, isName: string -> bool, isCourse: string -> bool): Scan {
    var line := Strip(raw);
    if line == [] then acc
    else
      var named := if isName(line) then acc.(nameLine := Some(line)) else acc;
      if isCourse(line) then named.(courseLines := named.courseLines + [line]) else named
  }

  /** What one raw line contributes to a selection by `p`. */
  function Selected(raw: string, p: string -> bool): (r: seq<string>)
    ensures |r| <= 1
  {
    if Hit(raw, p) then [Strip(raw)] else []
  }

  /** The stripped lines of `lines` that pass `p`, in their original order. */
  function Matches(lines: seq<string>, p: string -> bool): (r: seq<string>)
    ensures |r| <= |lines|
    decreases |lines|
  {
    if lines == [] then [] else Selected(lines[0], p) + Matches(lines[1..], p)
  }

  /** A string is selected exactly when some line strips to it and hits. */
  lemma {:induction false} MatchesMembers(lines: seq<string>, p: string -> bool, x: string)
    ensures x in Matches(lines, p) <==> exists i :: 0 <= i < |lines| && Hit(lines[i], p) && x == Strip(lines[i])
    decreases |lines|
  {
    if lines != [] {
      MatchesMembers(lines[1..], p, x);
      if exists i :: 0 <= i < |lines| && Hit(lines[i], p) && x == Strip(lines[i]) {
        var i :| 0 <= i < |lines| && Hit(lines[i], p) && x == Strip(lines[i]);
        if i > 0 {
          assert lines[1..][i - 1] == lines[i];
        }
      }
      if exists j :: 0 <= j < |lines| - 1 && Hit(lines[1..][j], p) && x == Strip(lines[1..][j]) {
        var j :| 0 <= j < |lines| - 1 && Hit(lines[1..][j], p) && x == Strip(lines[1..][j]);
        assert lines[1..][j] == lines[j + 1];
      }
    }
  }

  /** Selection commutes with concatenation, so the selected lines keep the
      order of the text. */
  lemma {:induction false} MatchesAppend(a: seq<string>, b: seq<string>, p: string -> bool)
    ensures Matches(a + b, p) == Matches(a, p) + Matches(b, p)
    decreases |a|
  {
    if a == [] {
      assert a + b == b;
    } else {
      assert (a + b)[0] == a[0];
      assert (a + b)[1..] == a[1..] + b;
      MatchesAppend(a[1..], b, p);
    }
  }

  /** No line is selected exactly when no line hits. */
  lemma MatchesEmptyIff(lines: seq<string>, p: string -> bool)
    ensures Matches(lines, p) == [] <==> forall i :: 0 <= i < |lines| ==> !Hit(lines[i], p)
  {
    if Matches(lines, p) != [] {
      MatchesMembers(lines, p, Matches(lines, p)[0]);
    } else {
      forall i | 0 <= i < |lines|
        ensures !Hit(lines[i], p)
      {
        MatchesMembers(lines, p, Strip(lines[i]));
      }
    }
  }

  /** The loop over `lines`, in order: the course lines are the hits of
      `isCourse` in order, and a name line is recorded iff `isName` hits
      some line (`LastHit` says which one). */
  function ScanLines(lines: seq<string>, isName: string -> bool, isCourse: string -> bool): (r: Scan)
    ensures r.courseLines == Matches(lines, isCourse)
    ensures r.nameLine.Some? <==> exists i :: 0 <= i < |lines| && Hit(lines[i], isName)
    decreases |lines|
  {
    if lines == [] then Scan(None, [])
    else
      var init := lines[..|lines| - 1];
      var last := lines[|lines| - 1];
      MatchesAppend(init, [last], isCourse);
      assert init + [last] == lines;
      assert forall i :: 0 <= i < |init| ==> init[i] == lines[i];
      Step(ScanLines(init, isName, isCourse), last, isName, isCourse)
  }

  /** Line `i` is the last line that `p` hits. */
  predicate LastHitAt(lines: seq<string>, p: string -> bool, i: int) {
    && 0 <= i < |lines|
    && Hit(lines[i], p)
    && forall j :: i < j < |lines| ==> !Hit(lines[j], p)
  }

  /** The last line decides the name line if it hits; otherwise the
      name line is what the earlier lines left. */
  lemma ScanLast(lines: seq<string>, isName: string -> bool, isCourse: string -> bool)
    requires lines != []
    ensures var last := lines[|lines| - 1];
            ScanLines(lines, isName, isCourse).nameLine
              == if Hit(last, isName) then Some(Strip(last))
                 else ScanLines(lines[..|lines| - 1], isName, isCourse).nameLine
  {
  }

  /** The last hit among the earlier lines stays the last hit when a line
      that does not hit is appended. */
  lemma LastHitAtExtend(lines: seq<string>, p: string -> bool, i: int)
    requires lines != [] && !Hit(lines[|lines| - 1], p)
    requires LastHitAt(lines[..|lines| - 1], p, i)
    ensures LastHitAt(lines, p, i)
  {
  }

  /** The recorded name line is the stripped form of the last line that
      `isName` hits: later hits overwrite earlier ones. */
  lemma {:induction false} LastHit(lines: seq<string>, isName: string -> bool, isCourse: string -> bool)
    ensures ScanLines(lines, isName, isCourse).nameLine.Some? ==>
              exists i :: LastHitAt(lines, isName, i)
                          && ScanLines(lines, isName, isCourse).nameLine.value == Strip(lines[i])
    decreases |lines|
  {
    if lines == [] {
      return;
    }
    var init := lines[..|lines| - 1];
    var last := lines[|lines| - 1];
    ScanLast(lines, isName, isCourse);
    if Hit(last, isName) {
      assert LastHitAt(lines, isName, |lines| - 1);
    } else if ScanLines(init, isName, isCourse).nameLine.Some? {
      LastHit(init, isName, isCourse);
      var i :| LastHitAt(init, isName, i) && ScanLines(init, isName, isCourse).nameLine.value == Strip(init[i]);
      LastHitAtExtend(lines, isName, i);
      assert init[i] == lines[i];
    }
  }

  /** `additional_info` as the scan leaves it: each key is present only
      when something was found for it. */
  function Extras(s: Scan): map<string, Json> {
    var named := if s.nameLine.Some? then map[NameLineKey := JString(s.nameLine.value)] else map[];
    if s.courseLines != [] then named[CourseLinesKey := JArray(Strings(s.courseLines))] else named
  }

  /** The lines `_basic_text_parsing` iterates over. */
  function Lines(text: string): seq<string> {
    Split(text, '\n')
  }

  /** `_basic_text_parsing(text)`: no student fields, no courses, the text
      kept as `raw_text`, and in `additional_info` the course lines (key
      present iff there is one) and the last name line (key present iff
      there is one). */
  function BasicTextParsing(text: string): (r: TranscriptData)
    ensures r.studentInfo == EmptyStudent && r.courses == [] && r.rawText == text
    ensures r.additionalInfo.JObject?
    ensures r.additionalInfo.fields.Keys <= {NameLineKey, CourseLinesKey}
    ensures CourseLinesKey in r.additionalInfo.fields
            <==> exists i :: 0 <= i < |Lines(text)| && Hit(Lines(text)[i], CourseTest)
    ensures CourseLinesKey in r.additionalInfo.fields ==>
              r.additionalInfo.fields[CourseLinesKey] == JArray(Strings(Matches(Lines(text), CourseTest)))
    ensures NameLineKey in r.additionalInfo.fields
            <==> exists i :: 0 <= i < |Lines(text)| && Hit(Lines(text)[i], NameTest)
    ensures NameLineKey in r.additionalInfo.fields ==>
      exists i :: LastHitAt(Lines(text), NameTest, i)
                  && r.additionalInfo.fields[NameLineKey] == JString(Strip(Lines(text)[i]))
  {
    var lines := Lines(text);
    var scan := ScanLines(lines, NameTest, CourseTest);
    MatchesEmptyIff(lines, CourseTest);
    LastHit(lines, NameTest, CourseTest);
    TranscriptData(EmptyStudent, [], text, JObject(Extras(scan)))
  }

  /** For a stripped line, "at least two tokens" is "contains whitespace". */
  lemma NameTestIff(line: string)
    requires Stripped(line) && line != []
    ensures NameTest(line) <==> MentionsName(line) && exists i :: 0 <= i < |line| && IsSpace(line[i])
  {
    TwoWordsIff(line);
  }
}

=== FILE: json.dfy ===
/** The value `json.loads` hands back: Python's `None`, `bool`, numbers,
    `str`, `list` and `dict` (a JSON object, keyed by strings). */
module Json {

  datatype Json =
    | JNull
    | JBool(b: bool)
    | JNumber(n: real)
    | JString(str: string)
    | JArray(items: seq<Json>)
    | JObject(fields: map<string, Json>)

  /** A JSON array of JSON strings, as `json.dumps` writes a `list[str]`. */
  function Strings(ss: seq<string>): (r: seq<Json>)
    ensures |r| == |ss|
    ensures forall i :: 0 <= i < |ss| ==> r[i] == JString(ss[i])
  {
    seq(|ss|, i requires 0 <= i < |ss| => JString(ss[i]))
  }
}

=== FILE: mapper.dfy ===
/** `map_to_transcript_fields`: the language model's reply is cleaned and
    parsed, the string "null" is turned into `None` one level deep, the
    records are built by keyword construction, and any failure on the way
    (no client, a failed call, an empty or unparsable reply, a value of the
    wrong shape, an unknown keyword) falls back to the heuristic parse.

    The chat call is an input (`Completion`) and `json.loads` is an input
    function `loads` that yields `None` where Python raises
    `JSONDecodeError`. */
module Mapper {
  import opened Wrappers
  import opened Text
  import opened Json
  import opened Records
  import opened Sanitizer
  import opened Heuristic

  /** What the chat-completion step yields: no client was configured, the
      call raised, or it answered with message content that may be `None`. */
  datatype Completion = Unconfigured | CallRaised | Replied(content: Option<string>)

  const StudentKey := "student_info"
  const CoursesKey := "courses"
  const AdditionalKey := "additional_info"

  /** The values the test `v != "null" and v is not None` turns into `None`. */
  predicate IsNullish(v: Json) {
    v == JNull || v == JString("null")
  }

  /** The comprehension `{k: (v if v != "null" and v is not None else None)}`
      over the top level of one object. */
  function NormalizeNulls(kw: map<string, Json>): (r: map<string, Json>)
    ensures r.Keys == kw.Keys
    ensures forall k :: k in r ==> (r[k] == JNull <==> IsNullish(kw[k]))
    ensures forall k :: k in r && !IsNullish(kw[k]) ==> r[k] == kw[k]
  {
    map k | k in kw :: if IsNullish(kw[k]) then JNull else kw[k]
  }

  /** After normalisation no value is the string "null". */
  lemma NormalizeLeavesNoNullString(kw: map<string, Json>)
    ensures forall k :: k in NormalizeNulls(kw) ==> NormalizeNulls(kw)[k] != JString("null")
  {
  }

  /** Normalising twice is normalising once. */
  lemma NormalizeIdempotent(kw: map<string, Json>)
    ensures NormalizeNulls(NormalizeNulls(kw)) == NormalizeNulls(kw)
  {
    var once := NormalizeNulls(kw);
    var twice := NormalizeNulls(once);
    forall k | k in once
      ensures twice[k] == once[k]
    {
      if IsNullish(once[k]) {
        assert once[k] == JNull;
      }
    }
  }

  /** The record `{None, "null", "123"}` becomes `{None, None, "123"}`. */
  lemma NormalizeExample()
    ensures NormalizeNulls(map["first_name" := JNull, "last_name" := JString("null"), "student_id" := JString("123")])
            == map["first_name" := JNull, "last_name" := JNull, "student_id" := JString("123")]
  {
    var kw := map["first_name" := JNull, "last_name" := JString("null"), "student_id" := JString("123")];
    var expected := map["first_name" := JNull, "last_name" := JNull, "student_id" := JString("123")];
    assert JString("123") != JString("null") by {
      assert "123"[0] != "null"[0];
    }
    assert NormalizeNulls(kw).Keys == expected.Keys;
  }

  /** What a dataclass field ends up holding: the string under `name`,
      unless the key is missing or its value is `null` or "null". */
  function FieldText(kw: map<string, Json>, name: string): Option<string> {
    if name in kw && kw[name].JString? && kw[name].str != "null" then Some(kw[name].str) else None
  }

  /** Reading a field of the normalised keywords is `FieldText` of the raw
      ones. */
  lemma TextOfNormalized(kw: map<string, Json>, name: string)
    ensures TextOf(NormalizeNulls(kw), name) == FieldText(kw, name)
  {
  }

  /** Normalisation neither makes nor breaks a keyword map the constructor
      accepts. */
  lemma AcceptsNormalized(kw: map<string, Json>, fields: set<string>)
    ensures Accepts(NormalizeNulls(kw), fields) <==> Accepts(kw, fields)
  {
  }

  /** A course item the loop body turns into a `Course`. */
  predicate CourseObject(item: Json) {
    item.JObject? && Accepts(item.fields, CourseFields)
  }

  /** One pass of the course loop: `Course(**clean_course_data)`. An item
      without `.items()` raises. */
  function CourseFrom(item: Json): (r: Result<Course, MapError>)
    ensures r.Success? <==> CourseObject(item)
    ensures r.Success? ==>
      forall name :: name in CourseFields ==> CourseField(r.value, name) == FieldText(item.fields, name)
  {
    match item
    case JObject(m) =>
      AcceptsNormalized(m, CourseFields);
      var r := MakeCourse(NormalizeNulls(m));
      if r.Success? then
        assert forall name :: name in CourseFields ==> TextOf(NormalizeNulls(m), name) == FieldText(m, name);
        r
      else r
    case _ => Failure(NotAMapping)
  }

  /** The course loop over a JSON array: it stops at the first item that
      fails, and otherwise yields one course per item, in order. */
  function CoursesOf(items: seq<Json>): (r: Result<seq<Course>, MapError>)
    ensures r.Success? <==> forall i :: 0 <= i < |items| ==> CourseObject(items[i])
    ensures r.Success? ==> |r.value| == |items|
    ensures r.Success? ==>
      forall i, name :: 0 <= i < |items| && name in CourseFields ==>
        CourseField(r.value[i], name) == FieldText(items[i].fields, name)
    decreases |items|
  {
    if items == [] then Success([])
    else
      var first :- CourseFrom(items[0]);
      var rest :- CoursesOf(items[1..]);
      assert forall i :: 1 <= i < |items| ==> items[1..][i - 1] == items[i];
      Success([first] + rest)
  }

  /** A `courses` value the loop gets through: an array of course objects,
      or something that iterates over nothing (`""`, `{}`). A non-empty
      string or object yields items without `.items()`, and `null`, a
      boolean or a number is not iterable. */
  predicate CoursesValueOk(v: Json) {
    match v
    case JArray(items) => forall i :: 0 <= i < |items| ==> CourseObject(items[i])
    case JString(s) => s == []
    case JObject(m) => m == map[]
    case _ => false
  }

  /** The course items the loop visits when it succeeds. */
  function CourseItems(o: map<string, Json>): seq<Json> {
    if CoursesKey in o && o[CoursesKey].JArray? then o[CoursesKey].items else []
  }

  /** `structured_data.get("courses", [])` followed by the course loop. */
  function CoursesFrom(o: map<string, Json>): (r: Result<seq<Course>, MapError>)
    ensures r.Success? <==> CoursesKey !in o || CoursesValueOk(o[CoursesKey])
    ensures r.Success? ==> |r.value| == |CourseItems(o)|
    ensures r.Success? ==>
      forall i, name :: 0 <= i < |r.value| && name in CourseFields ==>
        CourseField(r.value[i], name) == FieldText(CourseItems(o)[i].fields, name)
  {
    if CoursesKey !in o then Success([])
    else match o[CoursesKey]
      case JArray(items) => CoursesOf(items)
      case JString(s) => if s == [] then Success([]) else Failure(NotAMapping)
      case JObject(m) => if m == map[] then Success([]) else Failure(NotAMapping)
      case _ => Failure(NotIterable)
  }

  /** A `student_info` value `StudentInfo(**...)` accepts: absent, or an
      object with only declared fields holding strings or `null`. */
  predicate StudentValueOk(o: map<string, Json>) {
    StudentKey !in o || (o[StudentKey].JObject? && Accepts(o[StudentKey].fields, StudentFields))
  }

  /** The student keywords, `{}` when the key is missing. */
  function StudentKeywords(o: map<string, Json>): map<string, Json>
    requires StudentValueOk(o)
  {
    if StudentKey in o then o[StudentKey].fields else map[]
  }

  /** `structured_data.get("student_info", {})`, normalised and passed to
      `StudentInfo(**...)`; a value without `.items()` raises. */
  function StudentFrom(o: map<string, Json>): (r: Result<StudentInfo, MapError>)
    ensures r.Success? <==> StudentValueOk(o)
    ensures r.Success? ==>
      forall name :: name in StudentFields ==> StudentField(r.value, name) == FieldText(StudentKeywords(o), name)
  {
    if StudentKey !in o then
      MakeStudent(NormalizeNulls(map[]))
    else match o[StudentKey]
      case JObject(m) =>
        AcceptsNormalized(m, StudentFields);
        var r := MakeStudent(NormalizeNulls(m));
        if r.Success? then
          assert forall name :: name in StudentFields ==> TextOf(NormalizeNulls(m), name) == FieldText(m, name);
          r
        else r
      case _ => Failure(NotAMapping)
  }

  /** A parsed object the record construction gets through. */
  predicate WellFormed(o: map<string, Json>) {
    StudentValueOk(o) && (CoursesKey !in o || CoursesValueOk(o[CoursesKey]))
  }

  /** `structured_data.get("additional_info", {})`. */
  function AdditionalFrom(o: map<string, Json>): Json {
    if AdditionalKey in o then o[AdditionalKey] else JObject(map[])
  }

  /** The record built from a parsed JSON object. */
  function FromObject(text: string, o: map<string, Json>): (r: Result<TranscriptData, MapError>)
    ensures r.Success? <==> WellFormed(o)
    ensures r.Success? ==> r.value.rawText == text && r.value.additionalInfo == AdditionalFrom(o)
  {
    var student :- StudentFrom(o);
    var courses :- CoursesFrom(o);
    Success(TranscriptData(student, courses, text, AdditionalFrom(o)))
  }

  /** The JSON object the reply parses to, if the reply is there, is not
      blank, parses, and is an object. */
  function ParsedObject(c: Completion, loads: string -> Option<Json>): Option<map<string, Json>> {
    if c.Replied? && Sanitize(c.content).Success? then
      match loads(Sanitize(c.content).value)
      case Some(JObject(o)) => Some(o)
      case _ => None
    else None
  }

  /** The body of the `try` block, with each exception it can raise named by
      a `MapError`. */
  function ModelPath(text: string, c: Completion, loads: string -> Option<Json>): (r: Result<TranscriptData, MapError>)
    ensures r.Success? <==> ParsedObject(c, loads).Some? && WellFormed(ParsedObject(c, loads).value)
    ensures r.Success? ==> r == FromObject(text, ParsedObject(c, loads).value)
    ensures c.Unconfigured? ==> r == Failure(ClientMissing)
    ensures c.CallRaised? ==> r == Failure(CallError)
    ensures c.Replied? && (c.content.None? || AllSpace(c.content.value)) ==> r == Failure(EmptyReply)
  {
    match c
    case Unconfigured => Failure(ClientMissing)
    case CallRaised => Failure(CallError)
    case Replied(content) =>
      var clean :- Sanitize(content);
      match loads(clean)
      case None => Failure(InvalidJson)
      case Some(JObject(o)) => FromObject(text, o)
      case Some(_) => Failure(NotAnObject)
  }

  /** `map_to_transcript_fields(text)`. The record is the heuristic parse
      of `text` unless the reply parses to a well-formed object; then the
      student fields, the courses (one per array item, in order) and
      `additional_info` come from that object. */
  function MapToTranscriptFields(text: string, c: Completion, loads: string -> Option<Json>): (r: TranscriptData)
    ensures r.rawText == text
    ensures ParsedObject(c, loads).None? ==> r == BasicTextParsing(text)
    ensures ParsedObject(c, loads).Some? && !WellFormed(ParsedObject(c, loads).value) ==> r == BasicTextParsing(text)
    ensures ParsedObject(c, loads).Some? && WellFormed(ParsedObject(c, loads).value) ==>
      var o := ParsedObject(c, loads).value;
      && (forall name :: name in StudentFields ==> StudentField(r.studentInfo, name) == FieldText(StudentKeywords(o), name))
      && |r.courses| == |CourseItems(o)|
      && (forall i, name :: 0 <= i < |r.courses| && name in CourseFields ==>
            CourseField(r.courses[i], name) == FieldText(CourseItems(o)[i].fields, name))
      && r.additionalInfo == AdditionalFrom(o)
  {
    match ModelPath(text, c, loads)
    case Success(t) => t
    case Failure(_) => BasicTextParsing(text)
  }

  /** With no client configured the heuristic parse is used. */
  lemma FallbackWithoutClient(text: string, loads: string -> Option<Json>)
    ensures MapToTranscriptFields(text, Unconfigured, loads) == BasicTextParsing(text)
  {
  }

  /** A missing or blank reply falls back. */
  lemma FallbackOnBlankReply(text: string, content: Option<string>, loads: string -> Option<Json>)
    requires content.None? || AllSpace(content.value)
    ensures MapToTranscriptFields(text, Replied(content), loads) == BasicTextParsing(text)
  {
  }

  /** A reply that does not parse, or parses to something other than an
      object, falls back. */
  lemma FallbackOnNonObject(text: string, content: Option<string>, loads: string -> Option<Json>)
    requires Sanitize(content).Success?
    requires loads(Sanitize(content).value).None? || !loads(Sanitize(content).value).value.JObject?
    ensures MapToTranscriptFields(text, Replied(content), loads) == BasicTextParsing(text)
  {
    assert ParsedObject(Replied(content), loads).None?;
  }

  /** A `student_info` that is present but not an object falls back. */
  lemma FallbackOnStudentNotObject(text: string, c: Completion, loads: string -> Option<Json>, o: map<string, Json>)
    requires ParsedObject(c, loads) == Some(o)
    requires StudentKey in o && !o[StudentKey].JObject?
    ensures MapToTranscriptFields(text, c, loads) == BasicTextParsing(text)
  {
  }

  /** A `student_info` key that is not a `StudentInfo` field falls back. */
  lemma FallbackOnUnknownStudentKey(text: string, c: Completion, loads: string -> Option<Json>, o: map<string, Json>, k: string)
    requires ParsedObject(c, loads) == Some(o)
    requires StudentKey in o && o[StudentKey].JObject? && k in o[StudentKey].fields && k !in StudentFields
    ensures MapToTranscriptFields(text, c, loads) == BasicTextParsing(text)
  {
  }

  /** A key of some course object that is not a `Course` field falls back. */
  lemma FallbackOnUnknownCourseKey(text: string, c: Completion, loads: string -> Option<Json>, o: map<string, Json>, i: int, k: string)
    requires ParsedObject(c, loads) == Some(o)
    requires CoursesKey in o && o[CoursesKey].JArray? && 0 <= i < |o[CoursesKey].items|
    requires o[CoursesKey].items[i].JObject? && k in o[CoursesKey].items[i].fields && k !in CourseFields
    ensures MapToTranscriptFields(text, c, loads) == BasicTextParsing(text)
  {
    assert !CourseObject(o[CoursesKey].items[i]);
  }

  /** A well-formed object without `student_info` gives a student record
      with every field `None`, and one without `courses` gives no courses. */
  lemma MissingKeysDefault(text: string, c: Completion, loads: string -> Option<Json>, o: map<string, Json>)
    requires ParsedObject(c, loads) == Some(o) && WellFormed(o)
    ensures StudentKey !in o ==> MapToTranscriptFields(text, c, loads).studentInfo == EmptyStudent
    ensures CoursesKey !in o ==> MapToTranscriptFields(text, c, loads).courses == []
    ensures AdditionalKey !in o ==> MapToTranscriptFields(text, c, loads).additionalInfo == JObject(map[])
  {
    var s := MapToTranscriptFields(text, c, loads).studentInfo;
    if StudentKey !in o {
      assert StudentField(s, "first_name") == None;
      assert StudentField(s, "last_name") == None;
      assert StudentField(s, "student_id") == None;
      assert StudentField(s, "graduation_date") == None;
      assert StudentField(s, "degree") == None;
      assert StudentField(s, "major") == None;
      assert StudentField(s, "gpa") == None;
      assert StudentField(s, "school_name") == None;
    }
  }
}

=== FILE: pipeline.dfy ===
/** The text-to-document part of the processor: field mapping followed by
    the standardized document with its summary merged in. */
module Pipeline {
  import opened Wrappers
  import opened Json
  import opened Heuristic
  import opened Mapper
  import opened Summary
  import opened Standardizer

  /** `map_to_transcript_fields(text)` followed by
      `generate_standardized_json(..., source_file)`. */
  function Process(text: string, c: Completion, loads: string -> Option<Json>, sourceLabel: string, timestamp: string): (r: Standardized)
    ensures r.rawData.extractedText == text && r.rawData.textLength == |text|
    ensures r.transcriptMetadata.totalCourses == |r.academicRecord.courses|
    ensures r.academicRecord.summaryStatistics.totalCourses == |r.academicRecord.courses|
    ensures r.transcriptMetadata.processingTimestamp == timestamp && r.transcriptMetadata.sourceFile == sourceLabel
  {
    GenerateStandardized(MapToTranscriptFields(text, c, loads), sourceLabel, timestamp)
  }

  /** When the reply gives no usable object (including when there is no
      client), the document has no courses, blank names and credit totals,
      and the heuristic findings as its extracted fields. */
  lemma FallbackDocument(text: string, c: Completion, loads: string -> Option<Json>, sourceLabel: string, timestamp: string)
    requires ParsedObject(c, loads).None?
    ensures var r := Process(text, c, loads, sourceLabel, timestamp);
            && r.transcriptMetadata.totalCourses == 0
            && r.academicRecord.courses == []
            && r.studentInformation.personalDetails.firstName == ""
            && r.studentInformation.personalDetails.fullName == ""
            && r.academicRecord.summaryStatistics.totalCreditsAttempted == Blank
            && r.academicRecord.summaryStatistics.totalCreditsEarned == Blank
            && r.additionalInformation.extractedFields == BasicTextParsing(text).additionalInfo
  {
    var t := MapToTranscriptFields(text, c, loads);
    assert t == BasicTextParsing(text);
    JoinedNeither();
    assert StudentOutField(StandardStudent(t.studentInfo), "first_name") == "";
  }
}

=== FILE: records.dfy ===
/** The three dataclasses of the transcript processor (`Course`,
    `StudentInfo`, `TranscriptData`), keyword construction `Course(**kw)` /
    `StudentInfo(**kw)` and attribute lookup by field name. */
module Records {
  import opened Wrappers
  import opened Json

  /** One course entry; every field is an optional free-form string. */
  datatype Course = Course(
    courseCode: Option<string>,
    courseDescription: Option<string>,
    credits: Option<string>,
    creditsEarned: Option<string>,
    grade: Option<string>,
    passFail: Option<string>,
    semester: Option<string>,
    year: Option<string>)

  /** Student identity and degree information. */
  datatype StudentInfo = StudentInfo(
    firstName: Option<string>,
    lastName: Option<string>,
    studentId: Option<string>,
    graduationDate: Option<string>,
    degree: Option<string>,
    major: Option<string>,
    gpa: Option<string>,
    schoolName: Option<string>)

  /** The internal record both extraction paths produce. `additionalInfo`
      holds whatever value the extractor put there (a JSON object in the
      intended case, but the model path copies it without checking). */
  datatype TranscriptData = TranscriptData(
    studentInfo: StudentInfo,
    courses: seq<Course>,
    rawText: string,
    additionalInfo: Json)

  /** Why the model path was abandoned; every one of these ends in the
      heuristic fallback, so the reason is never surfaced. */
  datatype MapError =
    | ClientMissing
    | CallError
    | EmptyReply
    | InvalidJson
    | NotAnObject
    | NotAMapping
    | NotIterable
    | UnexpectedKeyword
    | NotText(name: string)

  /** `StudentInfo()`: every field at its default `None`. */
  const EmptyStudent := StudentInfo(None, None, None, None, None, None, None, None)

  const CourseFields: set<string> :=
    {"course_code", "course_description", "credits", "credits_earned",
     "grade", "pass_fail", "semester", "year"}

  const StudentFields: set<string> :=
    {"first_name", "last_name", "student_id", "graduation_date",
     "degree", "major", "gpa", "school_name"}

  /** `getattr(course, name)` for the eight declared fields. */
  function CourseField(c: Course, name: string): Option<string>
    requires name in CourseFields
  {
    match name
    case "course_code" => c.courseCode
    case "course_description" => c.courseDescription
    case "credits" => c.credits
    case "credits_earned" => c.creditsEarned
    case "grade" => c.grade
    case "pass_fail" => c.passFail
    case "semester" => c.semester
    case _ => c.year
  }

  /** `getattr(student, name)` for the eight declared fields. */
  function StudentField(s: StudentInfo, name: string): Option<string>
    requires name in StudentFields
  {
    match name
    case "first_name" => s.firstName
    case "last_name" => s.lastName
    case "student_id" => s.studentId
    case "graduation_date" => s.graduationDate
    case "degree" => s.degree
    case "major" => s.major
    case "gpa" => s.gpa
    case _ => s.schoolName
  }

  /** A keyword map the dataclass constructor accepts: every key is a
      declared field and every value is `None` or a string. */
  predicate Accepts(kw: map<string, Json>, fields: set<string>) {
    && kw.Keys <= fields
    && forall k :: k in kw ==> kw[k].JNull? || kw[k].JString?
  }

  /** The value a field receives from keyword arguments `kw`; a missing
      keyword leaves the default `None`. */
  function TextOf(kw: map<string, Json>, name: string): Option<string> {
    if name in kw && kw[name].JString? then Some(kw[name].str) else None
  }

  /** One keyword argument, read for field `name`. */
  function Keyword(kw: map<string, Json>, name: string): Result<Option<string>, MapError> {
    if name !in kw then Success(None)
    else match kw[name]
      case JNull => Success(None)
      case JString(s) => Success(Some(s))
      case _ => Failure(NotText(name))
  }

  /** `Course(**kw)`: rejects a keyword that is not a field, and every field
      holds the keyword's value, or `None` when the keyword is missing. */
  function MakeCourse(kw: map<string, Json>): (r: Result<Course, MapError>)
    ensures r.Success? <==> Accepts(kw, CourseFields)
    ensures r.Success? ==>
      forall name :: name in CourseFields ==> CourseField(r.value, name) == TextOf(kw, name)
  {
    if !(kw.Keys <= CourseFields) then Failure(UnexpectedKeyword)
    else
      var code :- Keyword(kw, "course_code");
      var description :- Keyword(kw, "course_description");
      var credits :- Keyword(kw, "credits");
      var earned :- Keyword(kw, "credits_earned");
      var grade :- Keyword(kw, "grade");
      var passFail :- Keyword(kw, "pass_fail");
      var semester :- Keyword(kw, "semester");
      var year :- Keyword(kw, "year");
      Success(Course(code, description, credits, earned, grade, passFail, semester, year))
  }

  /** `StudentInfo(**kw)`, with the same rules as `MakeCourse`. */
  function MakeStudent(kw: map<string, Json>): (r: Result<StudentInfo, MapError>)
    ensures r.Success? <==> Accepts(kw, StudentFields)
    ensures r.Success? ==>
      forall name :: name in StudentFields ==> StudentField(r.value, name) == TextOf(kw, name)
  {
    if !(kw.Keys <= StudentFields) then Failure(UnexpectedKeyword)
    else
      var first :- Keyword(kw, "first_name");
      var last :- Keyword(kw, "last_name");
      var id :- Keyword(kw, "student_id");
      var graduation :- Keyword(kw, "graduation_date");
      var degree :- Keyword(kw, "degree");
      var major :- Keyword(kw, "major");
      var gpa :- Keyword(kw, "gpa");
      var school :- Keyword(kw, "school_name");
      Success(StudentInfo(first, last, id, graduation, degree, major, gpa, school))
  }
}

=== FILE: sanitizer.dfy ===
/** The cleanup applied to the language model's reply before it is handed
    to the JSON parser: reject a missing or blank reply, trim it, drop a
    literal "```json" opening and a "```" closing, trim again. */
module Sanitizer {
  import opened Wrappers
  import opened Text
  import opened Records

  const JsonFence := "```json"
  const Fence := "```"

  /** Drops a literal "```json" at the front, then a "```" at the back. */
  function Unfence(t: string): (r: string)
    ensures |r| <= |t|
    ensures !StartsWith(t, JsonFence) && !EndsWith(t, Fence) ==> r == t
  {
    var afterOpen := if StartsWith(t, JsonFence) then t[|JsonFence|..] else t;
    if EndsWith(afterOpen, Fence) then afterOpen[..|afterOpen| - |Fence|] else afterOpen
  }

  function Sanitize(reply: Option<string>): (r: Result<string, MapError>)
    ensures r.Failure? <==> reply.None? || Strip(reply.value) == []
    ensures r.Failure? <==> reply.None? || AllSpace(reply.value)
    ensures r.Failure? ==> r.error == EmptyReply
    ensures r.Success? ==> Stripped(r.value) && |r.value| <= |Strip(reply.value)|
    ensures (r.Success? && !StartsWith(Strip(reply.value), JsonFence)
             && !EndsWith(Strip(reply.value), Fence)) ==> r.value == Strip(reply.value)
  {
    match reply
    case None => Failure(EmptyReply)
    case Some(s) =>
      StripEmptyIff(s);
      var t := Strip(s);
      if t == [] then Failure(EmptyReply)
      else
        StripIsStripped(Unfence(t));
        StripIsStripped(s);
        StripOfStripped(t);
        Success(Strip(Unfence(t)))
  }

  /** A reply with visible content is cleaned by unfencing its trimmed
      text and trimming again. */
  lemma SanitizeSome(s: string)
    requires Strip(s) != []
    ensures Sanitize(Some(s)) == Success(Strip(Unfence(Strip(s))))
  {
  }

  /** Clean JSON text (non-empty, trimmed, unfenced) passes unchanged. */
  lemma CleanReplyUnchanged(s: string)
    requires s != [] && Stripped(s)
    requires !StartsWith(s, JsonFence) && !EndsWith(s, Fence)
    ensures Sanitize(Some(s)) == Success(s)
  {
    StripOfStripped(s);
  }

  /** Unfencing removes exactly one "```json" ... "```" pair. */
  lemma UnfenceFenced(inner: string)
    ensures Unfence(JsonFence + inner + Fence) == inner
  {
  }

  /** A reply that wraps trimmed JSON text in a "```json" ... "```" block,
      with any whitespace around and inside the fences, is unwrapped to
      exactly that text. */
  lemma FencedReplyUnwrapped(lead: string, a: string, body: string, b: string, trail: string)
    requires AllSpace(lead) && AllSpace(a) && AllSpace(b) && AllSpace(trail)
    requires body != [] && Stripped(body)
    ensures Sanitize(Some(lead + JsonFence + a + body + b + Fence + trail)) == Success(body)
  {
    var fenced := JsonFence + (a + body + b) + Fence;
    assert Stripped(fenced) && fenced != [] by {
      assert fenced[0] == '`';
      assert fenced[|fenced| - 1] == '`';
    }
    assert lead + JsonFence + a + body + b + Fence + trail == lead + fenced + trail;
    StripAround(lead, fenced, trail);
    UnfenceFenced(a + body + b);
    StripAround(a, body, b);
    SanitizeSome(lead + fenced + trail);
  }

  /** Only the first of two "```json" openings is removed. */
  lemma UnfenceDoubled(x: string)
    ensures Unfence(JsonFence + JsonFence + x + Fence) == JsonFence + x
  {
    UnfenceFenced(JsonFence + x);
    assert JsonFence + JsonFence + x + Fence == JsonFence + (JsonFence + x) + Fence;
  }

  /** An opening without a closing loses the opening only. */
  lemma UnfenceOpeningOnly(x: string)
    requires !EndsWith(x, Fence)
    ensures Unfence(JsonFence + x) == x
  {
    var t := JsonFence + x;
    assert t[..|JsonFence|] == JsonFence && t[|JsonFence|..] == x;
  }

  /** A closing without an opening loses the closing only. */
  lemma UnfenceClosingOnly(x: string)
    requires !StartsWith(x + Fence, JsonFence)
    ensures Unfence(x + Fence) == x
  {
    var t := x + Fence;
    assert t[|t| - |Fence|..] == Fence && t[..|t| - |Fence|] == x;
  }

  lemma DoubledExample()
    ensures Unfence("```json```json x```") == "```json x"
  {
    UnfenceDoubled(" x");
    assert JsonFence + JsonFence + " x" + Fence == "```json```json x```";
  }

  lemma SingleExample()
    ensures Unfence("```json x") == " x"
  {
    assert !EndsWith(" x", Fence);
    UnfenceOpeningOnly(" x");
    assert JsonFence + " x" == "```json x";
  }

  /** The cleanup is not idempotent: a doubled "```json" opening survives
      the first pass and is removed by the second. */
  lemma NotIdempotent()
    ensures Sanitize(Some("```json```json x```")) == Success("```json x")
    ensures Sanitize(Some("```json x")) == Success("x")
  {
    var once := "```json```json x```";
    var twice := "```json x";
    assert Stripped(once) && once != [] by {
      assert once[0] == '`' && once[|once| - 1] == '`';
    }
    assert Stripped(twice) && twice != [] by {
      assert twice[0] == '`' && twice[|twice| - 1] == 'x';
    }
    StripOfStripped(once);
    StripOfStripped(twice);
    DoubledExample();
    SingleExample();
    StripAround(" ", "x", "");
    assert " " + "x" + "" == " x";
    SanitizeSome(once);
    SanitizeSome(twice);
  }
}

=== FILE: standardizer.dfy ===
/** `TranscriptData.to_standardized_json` and the merge in
    `generate_standardized_json`: a total projection of the internal record
    onto a fixed nested shape in which every missing value is the empty
    string, followed by filling in the processing metadata and the two
    credit totals. */
module Standardizer {
  import opened Wrappers
  import opened Text
  import opened Json
  import opened Records
  import opened Summary

  datatype TranscriptMetadata = TranscriptMetadata(
    processingTimestamp: string,
    sourceFile: string,
    processingVersion: string,
    totalCourses: nat)

  datatype PersonalDetails = PersonalDetails(
    firstName: string,
    lastName: string,
    fullName: string,
    studentId: string)

  datatype AcademicDetails = AcademicDetails(
    schoolName: string,
    degree: string,
    major: string,
    graduationDate: string,
    gpa: string)

  datatype StudentInformation = StudentInformation(
    personalDetails: PersonalDetails,
    academicDetails: AcademicDetails)

  datatype CourseIdentification = CourseIdentification(
    courseCode: string,
    courseTitle: string,
    courseDescription: string)

  datatype EnrollmentDetails = EnrollmentDetails(
    semester: string,
    year: string,
    academicPeriod: string)

  datatype CreditInformation = CreditInformation(
    creditsAttempted: string,
    creditsEarned: string,
    creditType: string)

  datatype GradeInformation = GradeInformation(
    letterGrade: string,
    passFailIndicator: string,
    gradePoints: string,
    gradeStatus: string)

  datatype CourseEntry = CourseEntry(
    courseIdentification: CourseIdentification,
    enrollmentDetails: EnrollmentDetails,
    creditInformation: CreditInformation,
    gradeInformation: GradeInformation)

  /** The two credit totals are `""` until the merge fills them in. */
  datatype SummaryStatistics = SummaryStatistics(
    totalCreditsAttempted: CreditTotal,
    totalCreditsEarned: CreditTotal,
    totalCourses: nat,
    overallGpa: string)

  datatype AcademicRecord = AcademicRecord(
    courses: seq<CourseEntry>,
    summaryStatistics: SummaryStatistics)

  datatype AdditionalInformation = AdditionalInformation(
    honorsAwards: seq<Json>,
    transferCredits: seq<Json>,
    notes: seq<Json>,
    extractedFields: Json)

  datatype RawData = RawData(extractedText: string, textLength: nat)

  /** The standardized transcript document. */
  datatype Standardized = Standardized(
    transcriptMetadata: TranscriptMetadata,
    studentInformation: StudentInformation,
    academicRecord: AcademicRecord,
    additionalInformation: AdditionalInformation,
    rawData: RawData)

  const ProcessingVersion := "1.0"
  const StandardCredit := "standard"
  const Completed := "completed"

  /** `value or ""`. */
  function OrEmpty(o: Option<string>): string {
    if o.Some? then o.value else []
  }

  /** `f"{a or ''} {b or ''}".strip() or ""`: the two parts joined by a
      space, with the whitespace around the whole trimmed. */
  function JoinedName(a: Option<string>, b: Option<string>): (r: string)
    ensures Stripped(r)
    ensures |r| <= |OrEmpty(a)| + 1 + |OrEmpty(b)|
  {
    StripIsStripped(OrEmpty(a) + " " + OrEmpty(b));
    Strip(OrEmpty(a) + " " + OrEmpty(b))
  }

  /** Two trimmed, non-empty parts are joined by one space. */
  lemma JoinedBoth(x: string, y: string)
    requires x != [] && Stripped(x) && y != [] && Stripped(y)
    ensures JoinedName(Some(x), Some(y)) == x + " " + y
  {
    var t := x + " " + y;
    assert t[0] == x[0] && t[|t| - 1] == y[|y| - 1];
    assert [] + t + [] == t;
    StripAround([], t, []);
  }

  /** A missing second part leaves the trimmed first part alone. */
  lemma JoinedFirstOnly(x: string)
    requires x != [] && Stripped(x)
    ensures JoinedName(Some(x), None) == x
  {
    assert x + " " + [] == [] + x + " ";
    StripAround([], x, " ");
  }

  /** A missing first part leaves the trimmed second part alone. */
  lemma JoinedSecondOnly(y: string)
    requires y != [] && Stripped(y)
    ensures JoinedName(None, Some(y)) == y
  {
    assert [] + " " + y == " " + y + [];
    StripAround(" ", y, []);
  }

  /** Two missing parts give the empty string. */
  lemma JoinedNeither()
    ensures JoinedName(None, None) == ""
  {
    assert [] + " " + [] == " ";
    StripEmptyIff(" ");
  }

  /** `("Jane", None)` gives "Jane" and `(None, None)` gives "". */
  lemma FullNameExamples()
    ensures JoinedName(Some("Jane"), None) == "Jane"
    ensures JoinedName(None, None) == ""
  {
    assert Stripped("Jane") by {
      assert "Jane"[0] == 'J' && "Jane"[3] == 'e';
    }
    JoinedFirstOnly("Jane");
    JoinedNeither();
  }

  /** The output string that carries the course field `name`. */
  function EntryField(e: CourseEntry, name: string): string
    requires name in CourseFields
  {
    match name
    case "course_code" => e.courseIdentification.courseCode
    case "course_description" => e.courseIdentification.courseDescription
    case "credits" => e.creditInformation.creditsAttempted
    case "credits_earned" => e.creditInformation.creditsEarned
    case "grade" => e.gradeInformation.letterGrade
    case "pass_fail" => e.gradeInformation.passFailIndicator
    case "semester" => e.enrollmentDetails.semester
    case _ => e.enrollmentDetails.year
  }

  /** One element of `academic_record.courses`: every course field appears
      with `None` as `""`, the description doubles as the title, the
      semester and year are joined into the academic period, and the rest
      are fixed. */
  function StandardCourse(c: Course): (r: CourseEntry)
    ensures forall name :: name in CourseFields ==> EntryField(r, name) == OrEmpty(CourseField(c, name))
    ensures r.courseIdentification.courseTitle == r.courseIdentification.courseDescription
    ensures r.enrollmentDetails.academicPeriod == JoinedName(c.semester, c.year)
    ensures r.creditInformation.creditType == StandardCredit
    ensures r.gradeInformation.gradePoints == "" && r.gradeInformation.gradeStatus == Completed
  {
    CourseEntry(
      CourseIdentification(OrEmpty(c.courseCode), OrEmpty(c.courseDescription), OrEmpty(c.courseDescription)),
      EnrollmentDetails(OrEmpty(c.semester), OrEmpty(c.year), JoinedName(c.semester, c.year)),
      CreditInformation(OrEmpty(c.credits), OrEmpty(c.creditsEarned), StandardCredit),
      GradeInformation(OrEmpty(c.grade), OrEmpty(c.passFail), "", Completed))
  }

  /** The output string that carries the student field `name`. */
  function StudentOutField(s: StudentInformation, name: string): string
    requires name in StudentFields
  {
    match name
    case "first_name" => s.personalDetails.firstName
    case "last_name" => s.personalDetails.lastName
    case "student_id" => s.personalDetails.studentId
    case "graduation_date" => s.academicDetails.graduationDate
    case "degree" => s.academicDetails.degree
    case "major" => s.academicDetails.major
    case "gpa" => s.academicDetails.gpa
    case _ => s.academicDetails.schoolName
  }

  /** `student_information`: every student field appears with `None` as
      `""`, and the full name joins the first and last names. */
  function StandardStudent(s: StudentInfo): (r: StudentInformation)
    ensures forall name :: name in StudentFields ==> StudentOutField(r, name) == OrEmpty(StudentField(s, name))
    ensures r.personalDetails.fullName == JoinedName(s.firstName, s.lastName)
  {
    StudentInformation(
      PersonalDetails(OrEmpty(s.firstName), OrEmpty(s.lastName), JoinedName(s.firstName, s.lastName), OrEmpty(s.studentId)),
      AcademicDetails(OrEmpty(s.schoolName), OrEmpty(s.degree), OrEmpty(s.major), OrEmpty(s.graduationDate), OrEmpty(s.gpa)))
  }

  /** `to_standardized_json()`. */
  function ToStandardized(t: TranscriptData): (r: Standardized)
    ensures r.transcriptMetadata.totalCourses == |t.courses|
    ensures r.academicRecord.summaryStatistics.totalCourses == |t.courses|
    ensures r.rawData.extractedText == t.rawText && r.rawData.textLength == |t.rawText|
    ensures |r.academicRecord.courses| == |t.courses|
    ensures forall i :: 0 <= i < |t.courses| ==> r.academicRecord.courses[i] == StandardCourse(t.courses[i])
    ensures r.studentInformation == StandardStudent(t.studentInfo)
    ensures r.academicRecord.summaryStatistics.overallGpa == r.studentInformation.academicDetails.gpa
    ensures r.transcriptMetadata.processingTimestamp == "" && r.transcriptMetadata.sourceFile == ""
    ensures r.transcriptMetadata.processingVersion == ProcessingVersion
    ensures r.academicRecord.summaryStatistics.totalCreditsAttempted == Blank
    ensures r.academicRecord.summaryStatistics.totalCreditsEarned == Blank
    ensures r.additionalInformation.honorsAwards == [] && r.additionalInformation.transferCredits == []
    ensures r.additionalInformation.notes == []
    ensures r.additionalInformation.extractedFields == t.additionalInfo
  {
    var student := StandardStudent(t.studentInfo);
    assert student.academicDetails.gpa == OrEmpty(t.studentInfo.gpa) by {
      assert StudentOutField(student, "gpa") == OrEmpty(StudentField(t.studentInfo, "gpa"));
    }
    Standardized(
      TranscriptMetadata("", "", ProcessingVersion, |t.courses|),
      student,
      AcademicRecord(
        seq(|t.courses|, i requires 0 <= i < |t.courses| => StandardCourse(t.courses[i])),
        SummaryStatistics(Blank, Blank, |t.courses|, OrEmpty(t.studentInfo.gpa))),
      AdditionalInformation([], [], [], t.additionalInfo),
      RawData(t.rawText, |t.rawText|))
  }

  /** `generate_standardized_json(transcript_data, source_file)`, with the
      current time and the base name of the source file passed in. The
      merge writes the timestamp, the source label and the two credit
      totals; everything else is the standardized record as it was. */
  function GenerateStandardized(t: TranscriptData, sourceLabel: string, timestamp: string): (r: Standardized)
    ensures r.transcriptMetadata.processingTimestamp == timestamp
    ensures r.transcriptMetadata.sourceFile == sourceLabel
    ensures r.academicRecord.summaryStatistics.totalCreditsAttempted
            == CalculateSummaryStatistics(t.courses).totalCreditsAttempted
    ensures r.academicRecord.summaryStatistics.totalCreditsEarned
            == CalculateSummaryStatistics(t.courses).totalCreditsEarned
    ensures var base := ToStandardized(t);
            && r.transcriptMetadata.processingVersion == base.transcriptMetadata.processingVersion
            && r.transcriptMetadata.totalCourses == base.transcriptMetadata.totalCourses
            && r.studentInformation == base.studentInformation
            && r.academicRecord.courses == base.academicRecord.courses
            && r.academicRecord.summaryStatistics.totalCourses == base.academicRecord.summaryStatistics.totalCourses
            && r.academicRecord.summaryStatistics.overallGpa == base.academicRecord.summaryStatistics.overallGpa
            && r.additionalInformation == base.additionalInformation
            && r.rawData == base.rawData
  {
    var base := ToStandardized(t);
    var stats := CalculateSummaryStatistics(t.courses);
    base.(
      transcriptMetadata := base.transcriptMetadata.(processingTimestamp := timestamp, sourceFile := sourceLabel),
      academicRecord := base.academicRecord.(
        summaryStatistics := base.academicRecord.summaryStatistics.(
          totalCreditsAttempted := stats.totalCreditsAttempted,
          totalCreditsEarned := stats.totalCreditsEarned)))
  }
}

=== FILE: summary.dfy ===
/** `_calculate_summary_statistics`: the attempted and earned credit values
    of every course are cleaned of spaces and the words "credits"/"credit",
    kept when what remains is digits and dots, and summed; a total is
    published as the empty string when it is zero.

    Sums are exact rationals; Python's `float` rounding and `str(float)`
    formatting are not modelled, so a published total is a `CreditTotal`
    rather than its text. */
module Summary {
  import opened Wrappers
  import opened Text
  import opened Records

  /** `value.replace(' ', '').replace('credits', '').replace('credit', '')`. */
  function CleanCredit(s: string): (r: string)
    ensures |r| <= |s|
    ensures ' ' !in r
    ensures forall c :: c in r ==> c in s
  {
    RemoveCharCount(s, ' ');
    RemoveAll(RemoveAll(RemoveAll(s, " "), "credits"), "credit")
  }

  /** Text without spaces and without a 'c' is already clean. */
  lemma CleanPlain(s: string)
    requires ' ' !in s && 'c' !in s
    ensures CleanCredit(s) == s
  {
    AbsentFirstChar(s, " ");
    RemoveAllAbsent(s, " ");
    AbsentFirstChar(s, "credits");
    RemoveAllAbsent(s, "credits");
    AbsentFirstChar(s, "credit");
    RemoveAllAbsent(s, "credit");
  }

  /** Digits and dots with at least one digit. */
  predicate Numeral(s: string) {
    && (forall i :: 0 <= i < |s| ==> IsDigit(s[i]) || s[i] == '.')
    && exists i :: 0 <= i < |s| && IsDigit(s[i])
  }

  /** The test `s.replace('.', '').isdigit()` accepts exactly the
      numerals. */
  lemma DigitTestIff(s: string)
    ensures IsDigits(RemoveAll(s, ".")) <==> Numeral(s)
  {
    var d := RemoveAll(s, ".");
    RemoveCharCount(s, '.');
    if IsDigits(d) {
      assert d[0] in s;
      var k :| 0 <= k < |s| && s[k] == d[0];
      assert IsDigit(s[k]);
      forall i | 0 <= i < |s|
        ensures IsDigit(s[i]) || s[i] == '.'
      {
        if s[i] != '.' {
          assert s[i] in d;
        }
      }
    }
    if Numeral(s) {
      var k :| 0 <= k < |s| && IsDigit(s[k]);
      assert s[k] in d;
      forall j | 0 <= j < |d|
        ensures IsDigit(d[j])
      {
        assert d[j] in s;
      }
    }
  }

  /** The part of `s` after the first `c`, empty when there is none. */
  function After(s: string, c: char): (r: string)
    ensures |r| <= |s|
    decreases |s|
  {
    if s == [] then [] else if s[0] == c then s[1..] else After(s[1..], c)
  }

  function Pow10(n: nat): (r: nat)
    ensures r >= 1
  {
    if n == 0 then 1 else 10 * Pow10(n - 1)
  }

  /** The value of a string of decimal digits. */
  function DigitsValue(d: string): nat
    decreases |d|
  {
    if d == [] then 0
    else
      var last := d[|d| - 1];
      var digit := if IsDigit(last) then last as int - '0' as int else 0;
      10 * DigitsValue(d[..|d| - 1]) + digit
  }

  /** What `float` makes of a numeral with at most one dot: its digits
      read as a whole number, scaled down by the digits after the dot. */
  function DecimalValue(s: string): real {
    DigitsValue(RemoveAll(s, ".")) as real / Pow10(|After(s, '.')|) as real
  }

  lemma ShiftStep(x: int, p: int, y: int, d: int)
    ensures 10 * (x * p + y) + d == x * (10 * p) + (10 * y + d)
  {
  }

  /** Appending digits shifts the value left by their count. */
  lemma {:induction false} DigitsValueAppend(a: string, b: string)
    ensures DigitsValue(a + b) == DigitsValue(a) * Pow10(|b|) + DigitsValue(b)
    decreases |b|
  {
    if b == [] {
      assert a + b == a;
    } else {
      var init := b[..|b| - 1];
      var last := b[|b| - 1];
      assert (a + b)[..|a + b| - 1] == a + init;
      assert (a + b)[|a + b| - 1] == last;
      DigitsValueAppend(a, init);
      var digit := if IsDigit(last) then last as int - '0' as int else 0;
      assert DigitsValue(a + b) == 10 * DigitsValue(a + init) + digit;
      assert DigitsValue(b) == 10 * DigitsValue(init) + digit;
      assert Pow10(|b|) == 10 * Pow10(|init|);
      ShiftStep(DigitsValue(a), Pow10(|init|), DigitsValue(init), digit);
    }
  }

  /** A whole number `w * scale + part`, scaled down by `scale`. */
  lemma ScaledDown(n: nat, w: nat, scale: nat, part: nat)
    requires scale >= 1 && n == w * scale + part
    ensures n as real / scale as real == w as real + part as real / scale as real
  {
    assert n as real == w as real * scale as real + part as real;
  }

  /** Text without `c` has nothing after a `c`. */
  lemma {:induction false} AfterAbsent(s: string, c: char)
    requires c !in s
    ensures After(s, c) == []
    decreases |s|
  {
    if s != [] {
      assert s[0] != c;
      assert forall k :: 0 <= k < |s| - 1 ==> s[1..][k] == s[k + 1];
      AfterAbsent(s[1..], c);
    }
  }

  /** What follows the first `c` is everything after it. */
  lemma {:induction false} AfterFirst(a: string, b: string, c: char)
    requires c !in a
    ensures After(a + [c] + b, c) == b
    decreases |a|
  {
    var s := a + [c] + b;
    if a == [] {
      assert s[0] == c && s[1..] == b;
    } else {
      assert s[0] == a[0] && a[0] != c;
      assert s[1..] == a[1..] + [c] + b;
      AfterFirst(a[1..], b, c);
    }
  }

  /** `float` of a numeral without a dot is the whole number it spells. */
  lemma WholeValue(a: string)
    requires '.' !in a
    ensures DecimalValue(a) == DigitsValue(a) as real
  {
    AbsentFirstChar(a, ".");
    RemoveAllAbsent(a, ".");
    AfterAbsent(a, '.');
    DecimalParts(a, a, []);
    ScaledDown(DigitsValue(a), DigitsValue(a), 1, 0);
  }

  /** `DecimalValue` in terms of its two ingredients. */
  lemma DecimalParts(s: string, digits: string, fraction: string)
    requires RemoveAll(s, ".") == digits && After(s, '.') == fraction
    ensures DecimalValue(s) == DigitsValue(digits) as real / Pow10(|fraction|) as real
  {
  }

  /** Deleting the dots of `a.b` leaves the digits of both parts. */
  lemma DotRemoved(a: string, b: string)
    requires '.' !in a && '.' !in b
    ensures RemoveAll(a + ['.'] + b, ".") == a + b
  {
    var t := ['.'] + b;
    assert a + ['.'] + b == a + t;
    RemoveAllSkip(a, t, ".");
    assert t[..1] == "." && t[1..] == b;
    AbsentFirstChar(b, ".");
    RemoveAllAbsent(b, ".");
  }

  /** `float` of `a.b` is the whole part `a` plus the digits of `b` scaled
      down by their count. */
  lemma FractionValue(a: string, b: string)
    requires '.' !in a && '.' !in b
    ensures DecimalValue(a + ['.'] + b) == DigitsValue(a) as real + DigitsValue(b) as real / Pow10(|b|) as real
  {
    var s := a + ['.'] + b;
    DotRemoved(a, b);
    AfterFirst(a, b, '.');
    assert DecimalValue(s) == DigitsValue(a + b) as real / Pow10(|b|) as real;
    DigitsValueAppend(a, b);
    ScaledDown(DigitsValue(a + b), DigitsValue(a), Pow10(|b|), DigitsValue(b));
  }

  /** How one credit value is read: not counted (missing, empty, or not a
      numeral once cleaned), a number, or a numeral with two or more dots,
      on which `float` raises. */
  datatype Reading = Ignored | Number(amount: real) | Raises

  /** `if value: ...; if cleaned.replace('.', '').isdigit(): float(cleaned)`. */
  function ReadCredit(v: Option<string>): (r: Reading)
    ensures r.Number? <==> v.Some? && Numeral(CleanCredit(v.value)) && Count(CleanCredit(v.value), '.') <= 1
    ensures r.Raises? <==> v.Some? && Numeral(CleanCredit(v.value)) && Count(CleanCredit(v.value), '.') >= 2
    ensures r.Number? ==> r.amount >= 0.0
    ensures r.Number? ==> r.amount == DecimalValue(CleanCredit(v.value))
  {
    if v.None? || v.value == [] then Ignored
    else
      var c := CleanCredit(v.value);
      DigitTestIff(c);
      if !IsDigits(RemoveAll(c, ".")) then Ignored
      else if Count(c, '.') <= 1 then Number(DecimalValue(c))
      else Raises
  }

  /** A value made only of digits and dots is left alone by the cleaning. */
  lemma CleanNumeralChars(s: string)
    requires forall i :: 0 <= i < |s| ==> IsDigit(s[i]) || s[i] == '.'
    ensures CleanCredit(s) == s
  {
    assert ' ' !in s && 'c' !in s by {
      forall i | 0 <= i < |s|
        ensures s[i] != ' ' && s[i] != 'c'
      {
      }
    }
    CleanPlain(s);
  }

  /** A credit value that is a whole number of ASCII digits counts as the
      number those digits spell. */
  lemma ReadWhole(a: string)
    requires IsDigits(a)
    ensures ReadCredit(Some(a)) == Number(DigitsValue(a) as real)
  {
    CleanNumeralChars(a);
    assert '.' !in a;
    RemoveCharCount(a, '.');
    AbsentFirstChar(a, ".");
    RemoveAllAbsent(a, ".");
    assert Numeral(a) by {
      assert IsDigit(a[0]);
    }
    WholeValue(a);
  }

  /** A credit value `a.b` of ASCII digits counts as `a` plus `b` scaled
      down by its number of digits, as `float` reads it. */
  lemma ReadFraction(a: string, b: string)
    requires forall i :: 0 <= i < |a| ==> IsDigit(a[i])
    requires forall i :: 0 <= i < |b| ==> IsDigit(b[i])
    requires a + b != []
    ensures ReadCredit(Some(a + ['.'] + b))
            == Number(DigitsValue(a) as real + DigitsValue(b) as real / Pow10(|b|) as real)
  {
    var s := a + ['.'] + b;
    assert '.' !in a && '.' !in b;
    assert forall i :: 0 <= i < |s| ==> IsDigit(s[i]) || s[i] == '.' by {
      forall i | 0 <= i < |s|
        ensures IsDigit(s[i]) || s[i] == '.'
      {
        if i > |a| {
          assert s[i] == b[i - |a| - 1];
        }
      }
    }
    CleanNumeralChars(s);
    DotRemoved(a, b);
    RemoveCharCount(s, '.');
    assert Numeral(s) by {
      if a != [] {
        assert IsDigit(s[0]);
      } else {
        assert s[1] == b[0];
      }
    }
    assert Count(s, '.') == 1;
    var r := ReadCredit(Some(s));
    assert r.Number? && r.amount == DecimalValue(s);
    FractionValue(a, b);
    var x := DigitsValue(a) as real + DigitsValue(b) as real / Pow10(|b|) as real;
    assert r.amount == x;
    assert r == Number(x);
  }

  /** What one course adds to the two totals. */
  datatype Credits = Credits(attempted: real, earned: real)

  function Add(a: Credits, b: Credits): Credits {
    Credits(a.attempted + b.attempted, a.earned + b.earned)
  }

  /** The amount a reading adds, zero unless it is a number. */
  function Counted(x: Reading): real {
    if x.Number? then x.amount else 0.0
  }

  /** One pass of the loop body. The attempted value is read first; when
      `float` raises on it the `except` clause skips the earned value as
      well. When `float` raises on the earned value the attempted amount
      is already counted. */
  function CourseCredits(c: Course): (r: Credits)
    ensures r.attempted >= 0.0 && r.earned >= 0.0
    ensures ReadCredit(c.credits).Raises? ==> r == Credits(0.0, 0.0)
    ensures !ReadCredit(c.credits).Raises? ==>
              r == Credits(Counted(ReadCredit(c.credits)), Counted(ReadCredit(c.creditsEarned)))
  {
    match ReadCredit(c.credits)
    case Raises => Credits(0.0, 0.0)
    case attempted =>
      Credits(Counted(attempted), Counted(ReadCredit(c.creditsEarned)))
  }

  /** The two running totals after the loop over `courses`. */
  function Totals(courses: seq<Course>): (r: Credits)
    ensures r.attempted >= 0.0 && r.earned >= 0.0
    decreases |courses|
  {
    if courses == [] then Credits(0.0, 0.0)
    else Add(CourseCredits(courses[0]), Totals(courses[1..]))
  }

  lemma TotalsCons(c: Course, rest: seq<Course>)
    ensures Totals([c] + rest) == Add(CourseCredits(c), Totals(rest))
  {
    assert ([c] + rest)[0] == c;
    assert ([c] + rest)[1..] == rest;
  }

  lemma AddZero(x: Credits)
    ensures Add(Credits(0.0, 0.0), x) == x
  {
  }

  lemma AddAssociative(x: Credits, y: Credits, z: Credits)
    ensures Add(x, Add(y, z)) == Add(Add(x, y), z)
  {
  }

  /** The totals of a concatenation are the sums of the totals. */
  lemma {:induction false} TotalsAppend(a: seq<Course>, b: seq<Course>)
    ensures Totals(a + b) == Add(Totals(a), Totals(b))
    decreases |a|
  {
    if a == [] {
      assert a + b == b;
      AddZero(Totals(b));
    } else {
      var head, tail := a[0], a[1..];
      assert a == [head] + tail;
      assert a + b == [head] + (tail + b);
      TotalsAppend(tail, b);
      TotalsCons(head, tail + b);
      TotalsCons(head, tail);
      AddAssociative(CourseCredits(head), Totals(tail), Totals(b));
    }
  }

  /** A published total: the empty string, or the text of a positive
      amount. */
  datatype CreditTotal = Blank | Amount(value: real)

  /** `str(total) if total > 0 else ""`. */
  function Publish(total: real): CreditTotal {
    if total > 0.0 then Amount(total) else Blank
  }

  /** The two entries `_calculate_summary_statistics` returns. */
  datatype CreditSummary = CreditSummary(totalCreditsAttempted: CreditTotal, totalCreditsEarned: CreditTotal)

  /** `_calculate_summary_statistics(transcript_data)`: each total is blank
      exactly when it is zero, and otherwise carries the sum. */
  function CalculateSummaryStatistics(courses: seq<Course>): (r: CreditSummary)
    ensures r.totalCreditsAttempted.Blank? <==> Totals(courses).attempted == 0.0
    ensures r.totalCreditsEarned.Blank? <==> Totals(courses).earned == 0.0
    ensures r.totalCreditsAttempted.Amount? ==> r.totalCreditsAttempted.value == Totals(courses).attempted
    ensures r.totalCreditsEarned.Amount? ==> r.totalCreditsEarned.value == Totals(courses).earned
  {
    var t := Totals(courses);
    CreditSummary(Publish(t.attempted), Publish(t.earned))
  }

  /** A course that carries only credit values. */
  function CreditsOnly(credits: Option<string>, earned: Option<string>): Course {
    Course(None, None, credits, earned, None, None, None, None)
  }

  lemma ReadPlainDigit(s: string, n: nat)
    requires |s| == 1 && IsDigit(s[0]) && n == s[0] as int - '0' as int
    ensures ReadCredit(Some(s)) == Number(n as real)
  {
    CleanPlain(s);
    AbsentFirstChar(s, ".");
    RemoveAllAbsent(s, ".");
    assert s[..0] == [] && s[1..] == [];
    assert After(s, '.') == [];
    assert DigitsValue(s) == n;
    assert Numeral(s);
    assert Count(s, '.') == 0;
  }

  lemma SpaceRemoved()
    ensures RemoveAll(" credits", " ") == "credits"
  {
    var s := " credits";
    assert s[..1] == " " && s[1..] == "credits";
    AbsentFirstChar("credits", " ");
    RemoveAllAbsent("credits", " ");
  }

  lemma UnitRemoved()
    ensures RemoveAll("credits", "credits") == []
  {
    var s := "credits";
    assert s[..|s|] == s && s[|s|..] == [];
  }

  /** A value followed by the unit " credits" cleans to the value. */
  lemma CleanWithUnit(num: string)
    requires ' ' !in num && 'c' !in num
    ensures CleanCredit(num + " credits") == num
  {
    SpaceRemoved();
    UnitRemoved();
    RemoveAllSkip(num, " credits", " ");
    RemoveAllSkip(num, "credits", "credits");
    assert num + [] == num;
    AbsentFirstChar(num, "credit");
    RemoveAllAbsent(num, "credit");
  }

  lemma SingularUnitRemoved()
    ensures RemoveAll(" credit", " ") == "credit"
    ensures RemoveAll("credit", "credits") == "credit"
    ensures RemoveAll("credit", "credit") == []
  {
    var s := " credit";
    assert s[..1] == " " && s[1..] == "credit";
    AbsentFirstChar("credit", " ");
    RemoveAllAbsent("credit", " ");
    var u := "credit";
    assert u[..|u|] == u && u[|u|..] == [];
  }

  /** A value followed by the unit " credit" cleans to the value. */
  lemma CleanWithSingularUnit(num: string)
    requires ' ' !in num && 'c' !in num
    ensures CleanCredit(num + " credit") == num
  {
    SingularUnitRemoved();
    RemoveAllSkip(num, " credit", " ");
    RemoveAllSkip(num, "credit", "credits");
    RemoveAllSkip(num, "credit", "credit");
    assert num + [] == num;
  }

  lemma ValueThreeAndAHalf()
    ensures Numeral("3.5") && Count("3.5", '.') == 1
    ensures DecimalValue("3.5") == 3.5
  {
    RemoveAllSkip("3", ".5", ".");
    assert "3" + ".5" == "3.5";
    assert RemoveAll(".5", ".") == "5";
    assert After("3.5", '.') == "5";
    assert DigitsValue("35") == 35 by {
      assert "35"[..1] == "3";
      assert DigitsValue("3") == 3 by {
        assert "3"[..0] == [];
      }
    }
    assert Numeral("3.5") by {
      assert IsDigit("3.5"[0]);
    }
  }

  lemma ReadThreeAndAHalf()
    ensures ReadCredit(Some("3.5 credits")) == Number(3.5)
  {
    CleanWithUnit("3.5");
    assert "3.5" + " credits" == "3.5 credits";
    ValueThreeAndAHalf();
  }

  lemma ReadNotApplicable()
    ensures ReadCredit(Some("N/A")) == Ignored
  {
    CleanPlain("N/A");
    DigitTestIff("N/A");
    assert !IsDigit("N/A"[0]) && "N/A"[0] != '.';
  }

  lemma ReadTwoDots()
    ensures ReadCredit(Some("1.2.3")) == Raises
  {
    CleanPlain("1.2.3");
    assert Numeral("1.2.3");
    assert Count("1.2.3", '.') == 2;
  }

  /** The attempted total of five courses is the sum of what each adds. */
  lemma TotalsOfFive(c0: Course, c1: Course, c2: Course, c3: Course, c4: Course)
    ensures Totals([c0, c1, c2, c3, c4]).attempted
            == CourseCredits(c0).attempted + CourseCredits(c1).attempted + CourseCredits(c2).attempted
               + CourseCredits(c3).attempted + CourseCredits(c4).attempted
  {
    assert [c4][1..] == [];
    assert Totals([c4]).attempted == CourseCredits(c4).attempted;
    assert [c3, c4][1..] == [c4];
    assert Totals([c3, c4]).attempted == CourseCredits(c3).attempted + Totals([c4]).attempted;
    assert [c2, c3, c4][1..] == [c3, c4];
    assert Totals([c2, c3, c4]).attempted == CourseCredits(c2).attempted + Totals([c3, c4]).attempted;
    assert [c1, c2, c3, c4][1..] == [c2, c3, c4];
    assert Totals([c1, c2, c3, c4]).attempted == CourseCredits(c1).attempted + Totals([c2, c3, c4]).attempted;
    assert [c0, c1, c2, c3, c4][1..] == [c1, c2, c3, c4];
  }

  /** `["3", "3.5 credits", "N/A", "", "4"]` totals 10.5: the unit is
      dropped, and the value that is not a numeral and the empty value
      count nothing. */
  lemma CreditsExample()
    ensures Totals([CreditsOnly(Some("3"), None), CreditsOnly(Some("3.5 credits"), None),
                    CreditsOnly(Some("N/A"), None), CreditsOnly(Some(""), None),
                    CreditsOnly(Some("4"), None)]).attempted == 10.5
  {
    ReadPlainDigit("3", 3);
    ReadThreeAndAHalf();
    ReadNotApplicable();
    ReadPlainDigit("4", 4);
    TotalsOfFive(CreditsOnly(Some("3"), None), CreditsOnly(Some("3.5 credits"), None),
                 CreditsOnly(Some("N/A"), None), CreditsOnly(Some(""), None),
                 CreditsOnly(Some("4"), None));
  }

  /** "1.2.3" passes the digit test but `float` raises: as the attempted
      value it loses the earned value too; as the earned value it keeps
      the attempted one. */
  lemma RaisingValueSkipsRest()
    ensures CourseCredits(CreditsOnly(Some("1.2.3"), Some("3"))) == Credits(0.0, 0.0)
    ensures CourseCredits(CreditsOnly(Some("3"), Some("1.2.3"))) == Credits(3.0, 0.0)
  {
    ReadTwoDots();
    ReadPlainDigit("3", 3);
  }
}

=== FILE: text.dfy ===
/** The Python string operations the transcript pipeline relies on, written
    out over `string` (a `seq<char>` of Unicode scalar values):
    `str.strip()`, `str.split('\n')`, `str.split()`, `str.lower()`,
    `str.startswith`, `str.endswith`, the `in` substring test and
    `str.replace(old, "")`. */
module Text {

  /** Python's `str.isspace` set, which is what `strip()` and `split()` with
      no argument treat as whitespace. */
  predicate IsSpace(c: char) {
    || ('\t' <= c <= '\r')
    || ('\U{1C}' <= c <= ' ')
    || c == '\U{85}' || c == '\U{A0}' || c == '\U{1680}'
    || ('\U{2000}' <= c <= '\U{200A}')
    || c == '\U{2028}' || c == '\U{2029}' || c == '\U{202F}'
    || c == '\U{205F}' || c == '\U{3000}'
  }

  predicate AllSpace(s: string) {
    forall i :: 0 <= i < |s| ==> IsSpace(s[i])
  }

  /** A string with no leading and no trailing whitespace. */
  predicate Stripped(s: string) {
    s == [] || (!IsSpace(s[0]) && !IsSpace(s[|s| - 1]))
  }

  /** `s.lstrip()`: drops leading whitespace. */
  function TrimStart(s: string): (r: string)
    ensures |r| <= |s|
    decreases |s|
  {
    if s != [] && IsSpace(s[0]) then TrimStart(s[1..]) else s
  }

  /** `TrimStart(s)` is a suffix of `s` that does not start with
      whitespace, and what it dropped is all whitespace. */
  lemma {:induction false} TrimStartShape(s: string)
    ensures var r := TrimStart(s);
            && r == s[|s| - |r|..]
            && (r == [] || !IsSpace(r[0]))
            && AllSpace(s[..|s| - |r|])
    decreases |s|
  {
    if s != [] && IsSpace(s[0]) {
      TrimStartShape(s[1..]);
      var r := TrimStart(s[1..]);
      assert s[1..][|s| - 1 - |r|..] == s[|s| - |r|..];
      assert s[..|s| - |r|] == [s[0]] + s[1..][..|s| - 1 - |r|];
    }
  }

  /** `s.rstrip()`: drops trailing whitespace. */
  function TrimEnd(s: string): (r: string)
    ensures |r| <= |s|
    decreases |s|
  {
    if s != [] && IsSpace(s[|s| - 1]) then TrimEnd(s[..|s| - 1]) else s
  }

  /** `TrimEnd(s)` is a prefix of `s` that does not end with whitespace,
      and what it dropped is all whitespace. */
  lemma {:induction false} TrimEndShape(s: string)
    ensures var r := TrimEnd(s);
            && r == s[..|r|]
            && (r == [] || !IsSpace(r[|r| - 1]))
            && AllSpace(s[|r|..])
    decreases |s|
  {
    if s != [] && IsSpace(s[|s| - 1]) {
      TrimEndShape(s[..|s| - 1]);
      var r := TrimEnd(s[..|s| - 1]);
      assert s[..|s| - 1][..|r|] == s[..|r|];
      assert s[|r|..] == s[..|s| - 1][|r|..] + [s[|s| - 1]];
    }
  }

  /** `s.strip()`. */
  function Strip(s: string): (r: string)
    ensures |r| <= |s|
  {
    TrimEnd(TrimStart(s))
  }

  /** The result of `Strip` neither starts nor ends with whitespace. */
  lemma StripIsStripped(s: string)
    ensures Stripped(Strip(s))
  {
    var t := TrimStart(s);
    TrimStartShape(s);
    TrimEndShape(t);
    var r := TrimEnd(t);
    if r != [] {
      assert r[0] == t[0];
    }
  }

  /** `s` is some whitespace, then `Strip(s)`, then some whitespace. */
  lemma StripShape(s: string)
    ensures var r := Strip(s);
            exists i :: 0 <= i <= |s| - |r| && s[i..i + |r|] == r
                        && AllSpace(s[..i]) && AllSpace(s[i + |r|..])
  {
    var t := TrimStart(s);
    var r := TrimEnd(t);
    TrimStartShape(s);
    TrimEndShape(t);
    var i := |s| - |t|;
    assert s[i..i + |r|] == r;
    assert s[i + |r|..] == t[|r|..];
    assert 0 <= i <= |s| - |r| && s[i..i + |r|] == r && AllSpace(s[..i]) && AllSpace(s[i + |r|..]);
  }

  /** Stripping a string that is already stripped changes nothing; in
      particular `Strip` is idempotent. */
  lemma StripOfStripped(s: string)
    requires Stripped(s)
    ensures Strip(s) == s
  {
  }

  lemma StripIdempotent(s: string)
    ensures Strip(Strip(s)) == Strip(s)
  {
    StripIsStripped(s);
    StripOfStripped(Strip(s));
  }

  /** `s.strip() == ""` exactly when `s` is all whitespace. */
  lemma StripEmptyIff(s: string)
    ensures Strip(s) == [] <==> AllSpace(s)
  {
    StripShape(s);
    StripIsStripped(s);
  }

  /** Dropping leading whitespace in front of a non-space character. */
  lemma {:induction false} TrimStartAround(a: string, t: string)
    requires AllSpace(a)
    requires t != [] && !IsSpace(t[0])
    ensures TrimStart(a + t) == t
    decreases |a|
  {
    if a != [] {
      assert (a + t)[1..] == a[1..] + t;
      TrimStartAround(a[1..], t);
    } else {
      assert a + t == t;
    }
  }

  /** Dropping trailing whitespace behind a non-space character. */
  lemma {:induction false} TrimEndAround(t: string, b: string)
    requires AllSpace(b)
    requires t != [] && !IsSpace(t[|t| - 1])
    ensures TrimEnd(t + b) == t
    decreases |b|
  {
    if b != [] {
      assert (t + b)[..|t + b| - 1] == t + b[..|b| - 1];
      TrimEndAround(t, b[..|b| - 1]);
    } else {
      assert t + b == t;
    }
  }

  /** Stripping whitespace wrapped around trimmed non-empty text gives the
      text back. */
  lemma StripAround(a: string, t: string, b: string)
    requires AllSpace(a) && AllSpace(b)
    requires t != [] && Stripped(t)
    ensures Strip(a + t + b) == t
  {
    assert a + t + b == a + (t + b);
    TrimStartAround(a, t + b);
    TrimEndAround(t, b);
  }

  predicate StartsWith(s: string, prefix: string) {
    |prefix| <= |s| && s[..|prefix|] == prefix
  }

  predicate EndsWith(s: string, suffix: string) {
    |suffix| <= |s| && s[|s| - |suffix|..] == suffix
  }

  /** Python's `needle in hay` on strings. */
  predicate Contains(hay: string, needle: string)
    decreases |hay|
  {
    StartsWith(hay, needle) || (hay != [] && Contains(hay[1..], needle))
  }

  /** `needle` occurs in `hay` starting at position `i`. */
  predicate OccursAt(hay: string, needle: string, i: int) {
    0 <= i <= |hay| - |needle| && hay[i..i + |needle|] == needle
  }

  /** `Contains` is "occurs at some position". */
  lemma {:induction false} ContainsAt(hay: string, needle: string)
    ensures Contains(hay, needle) <==> exists i :: OccursAt(hay, needle, i)
    decreases |hay|
  {
    if StartsWith(hay, needle) {
      assert OccursAt(hay, needle, 0);
    }
    if hay != [] {
      ContainsAt(hay[1..], needle);
      if exists i :: OccursAt(hay, needle, i) {
        var i :| OccursAt(hay, needle, i);
        if i > 0 {
          assert OccursAt(hay[1..], needle, i - 1);
        } else {
          assert StartsWith(hay, needle);
        }
      }
      if exists j :: OccursAt(hay[1..], needle, j) {
        var j :| OccursAt(hay[1..], needle, j);
        assert OccursAt(hay, needle, j + 1);
      }
    }
  }

  /** Text lacking the needle's first character does not contain it. */
  lemma AbsentFirstChar(hay: string, needle: string)
    requires needle != [] && needle[0] !in hay
    ensures !Contains(hay, needle)
  {
    ContainsAt(hay, needle);
    forall i | 0 <= i <= |hay| - |needle|
      ensures !OccursAt(hay, needle, i)
    {
      assert hay[i..i + |needle|][0] == hay[i];
    }
  }

  function LowerChar(c: char): char {
    if 'A' <= c <= 'Z' then (c as int + 32) as char else c
  }

  /** `s.lower()` restricted to the ASCII letters. */
  function Lower(s: string): (r: string)
    ensures |r| == |s|
    ensures forall i :: 0 <= i < |r| ==> !('A' <= r[i] <= 'Z')
    ensures forall i :: 0 <= i < |r| && 'A' <= s[i] <= 'Z' ==> r[i] as int == s[i] as int + 32
    ensures forall i :: 0 <= i < |r| && !('A' <= s[i] <= 'Z') ==> r[i] == s[i]
  {
    seq(|s|, i requires 0 <= i < |s| => LowerChar(s[i]))
  }

  /** Lowering lowered text changes nothing. */
  lemma LowerIdempotent(s: string)
    ensures Lower(Lower(s)) == Lower(s)
  {
  }

  /** `s.split(sep)` for a one-character separator: always at least one
      piece, and no piece contains the separator. */
  function Split(s: string, sep: char): (r: seq<string>)
    ensures |r| >= 1
    ensures forall i :: 0 <= i < |r| ==> sep !in r[i]
    decreases |s|
  {
    if s == [] then [[]]
    else
      var rest := Split(s[1..], sep);
      if s[0] == sep then [[]] + rest
      else [[s[0]] + rest[0]] + rest[1..]
  }

  /** `sep.join(parts)`, the inverse of `Split`. */
  function Join(parts: seq<string>, sep: char): string
    decreases |parts|
  {
    if parts == [] then []
    else if |parts| == 1 then parts[0]
    else parts[0] + [sep] + Join(parts[1..], sep)
  }

  /** Splitting and joining back gives the original text. */
  lemma {:induction false} JoinSplit(s: string, sep: char)
    ensures Join(Split(s, sep), sep) == s
    decreases |s|
  {
    if s != [] {
      var rest := Split(s[1..], sep);
      JoinSplit(s[1..], sep);
      if s[0] == sep {
        assert Split(s, sep) == [[]] + rest;
        assert ([[]] + rest)[1..] == rest;
      } else {
        var parts := [[s[0]] + rest[0]] + rest[1..];
        assert Split(s, sep) == parts;
        if |rest| == 1 {
          assert Join(parts, sep) == [s[0]] + rest[0];
        } else {
          assert parts[1..] == rest[1..];
          assert Join(rest, sep) == rest[0] + [sep] + Join(rest[1..], sep);
        }
      }
    }
  }

  /** A prefix free of the separator is glued onto the first piece. */
  lemma {:induction false} SplitPrefix(p: string, t: string, sep: char)
    requires sep !in p
    ensures Split(p + t, sep) == [p + Split(t, sep)[0]] + Split(t, sep)[1..]
    decreases |p|
  {
    if p != [] {
      assert (p + t)[0] == p[0] && p[0] != sep;
      assert (p + t)[1..] == p[1..] + t;
      SplitPrefix(p[1..], t, sep);
      var rest := Split(p[1..] + t, sep);
      assert Split(p + t, sep) == [[p[0]] + rest[0]] + rest[1..];
      assert [p[0]] + (p[1..] + Split(t, sep)[0]) == p + Split(t, sep)[0];
    } else {
      var parts := Split(t, sep);
      assert p + t == t;
      assert p + parts[0] == parts[0];
      assert [parts[0]] + parts[1..] == parts;
    }
  }

  /** Joining pieces free of the separator and splitting again gives the
      pieces back. */
  lemma {:induction false} SplitJoin(parts: seq<string>, sep: char)
    requires |parts| >= 1
    requires forall i :: 0 <= i < |parts| ==> sep !in parts[i]
    ensures Split(Join(parts, sep), sep) == parts
    decreases |parts|
  {
    if |parts| == 1 {
      assert Split([], sep) == [[]];
      SplitPrefix(parts[0], [], sep);
      assert parts[0] + [] == parts[0];
    } else {
      var t := Join(parts[1..], sep);
      SplitJoin(parts[1..], sep);
      assert Join(parts, sep) == parts[0] + ([sep] + t);
      SplitPrefix(parts[0], [sep] + t, sep);
      assert ([sep] + t)[0] == sep && ([sep] + t)[1..] == t;
      assert Split([sep] + t, sep) == [[]] + parts[1..];
      assert parts[0] + [] == parts[0];
      assert [parts[0]] + parts[1..] == parts;
    }
  }

  /** The longest prefix of `s` that contains no whitespace. */
  function WordPrefix(s: string): (r: string)
    ensures |r| <= |s| && r == s[..|r|]
    ensures forall i :: 0 <= i < |r| ==> !IsSpace(r[i])
    ensures |r| == |s| || IsSpace(s[|r|])
    ensures s != [] && !IsSpace(s[0]) ==> |r| >= 1
    decreases |s|
  {
    if s == [] || IsSpace(s[0]) then [] else [s[0]] + WordPrefix(s[1..])
  }

  /** `s.split()`: the maximal runs of non-whitespace characters. */
  function Words(s: string): (r: seq<string>)
    ensures forall k :: 0 <= k < |r| ==> r[k] != []
    decreases |s|
  {
    if s == [] then []
    else if IsSpace(s[0]) then Words(s[1..])
    else
      var w := WordPrefix(s);
      [w] + Words(s[|w|..])
  }

  /** A string with some non-whitespace character has at least one word. */
  lemma {:induction false} WordsNonEmpty(s: string, k: int)
    requires 0 <= k < |s| && !IsSpace(s[k])
    ensures |Words(s)| >= 1
    decreases |s|
  {
    if IsSpace(s[0]) {
      WordsNonEmpty(s[1..], k - 1);
    }
  }

  /** For a stripped, non-empty string, `len(s.split()) >= 2` holds exactly
      when the string contains a whitespace character. */
  lemma {:induction false} TwoWordsIff(s: string)
    requires Stripped(s) && s != []
    ensures |Words(s)| >= 2 <==> exists i :: 0 <= i < |s| && IsSpace(s[i])
  {
    var w := WordPrefix(s);
    assert Words(s) == [w] + Words(s[|w|..]);
    if exists i :: 0 <= i < |s| && IsSpace(s[i]) {
      var i :| 0 <= i < |s| && IsSpace(s[i]);
      assert forall j :: 0 <= j < |w| ==> !IsSpace(s[j]) by {
        forall j | 0 <= j < |w|
          ensures !IsSpace(s[j])
        {
          assert w[j] == s[j];
        }
      }
      assert |w| <= i;
      var t := s[|w|..];
      assert t[|t| - 1] == s[|s| - 1];
      WordsNonEmpty(t, |t| - 1);
    } else {
      assert |w| == |s|;
      assert s[|w|..] == [];
    }
  }

  /** `s.replace(pat, "")`: one left-to-right pass that deletes every
      non-overlapping occurrence of `pat`. */
  function RemoveAll(s: string, pat: string): (r: string)
    requires pat != []
    ensures |r| <= |s|
    ensures forall c :: c in r ==> c in s
    decreases |s|
  {
    if |s| < |pat| then s
    else if s[..|pat|] == pat then RemoveAll(s[|pat|..], pat)
    else [s[0]] + RemoveAll(s[1..], pat)
  }

  /** Text without an occurrence of `pat` passes `RemoveAll` unchanged. */
  lemma {:induction false} RemoveAllAbsent(s: string, pat: string)
    requires pat != []
    requires !Contains(s, pat)
    ensures RemoveAll(s, pat) == s
    decreases |s|
  {
    if |s| >= |pat| {
      assert s[..|pat|] != pat;
      RemoveAllAbsent(s[1..], pat);
      assert [s[0]] + s[1..] == s;
    }
  }

  /** Text in front of the pattern's first character passes through. */
  lemma {:induction false} RemoveAllSkip(a: string, b: string, pat: string)
    requires pat != [] && pat[0] !in a
    ensures RemoveAll(a + b, pat) == a + RemoveAll(b, pat)
    decreases |a|
  {
    if a == [] {
      assert a + b == b;
    } else {
      var s := a + b;
      assert s[0] == a[0] && s[1..] == a[1..] + b;
      if |s| >= |pat| {
        assert s[..|pat|][0] != pat[0];
      } else {
        assert |pat| > 1;
      }
      RemoveAllSkip(a[1..], b, pat);
      assert [a[0]] + (a[1..] + RemoveAll(b, pat)) == a + RemoveAll(b, pat);
    }
  }

  predicate IsDigit(c: char) {
    '0' <= c <= '9'
  }

  /** `s.isdigit()` restricted to ASCII digits: non-empty and all digits. */
  predicate IsDigits(s: string) {
    s != [] && forall i :: 0 <= i < |s| ==> IsDigit(s[i])
  }

  /** Number of occurrences of `c` in `s`. */
  function Count(s: string, c: char): nat
    decreases |s|
  {
    if s == [] then 0 else (if s[0] == c then 1 else 0) + Count(s[1..], c)
  }

  /** Deleting every `c` leaves exactly the other characters. */
  lemma {:induction false} RemoveCharCount(s: string, c: char)
    ensures |RemoveAll(s, [c])| == |s| - Count(s, c)
    ensures c !in RemoveAll(s, [c])
    ensures forall i :: 0 <= i < |s| && s[i] != c ==> s[i] in RemoveAll(s, [c])
    decreases |s|
  {
    if s != [] {
      RemoveCharCount(s[1..], c);
      var rest := RemoveAll(s[1..], [c]);
      if s[0] == c {
        assert s[..1] == [c];
        assert RemoveAll(s, [c]) == rest;
      } else {
        assert s[..1] != [c];
        assert RemoveAll(s, [c]) == [s[0]] + rest;
        forall i | 0 <= i < |s| && s[i] != c
          ensures s[i] in RemoveAll(s, [c])
        {
          if i > 0 {
            assert s[1..][i - 1] == s[i];
          }
        }
      }
    }
  }
}

=== FILE: wrappers.dfy ===
/** Failure-compatible wrappers used throughout the model: `Option` for the
    Python `Optional[...]` fields and `Result` for the steps of the model path
    whose exceptions are caught and turned into the heuristic fallback. */
module Wrappers {

  datatype Option<+T> = None | Some(value: T)

  datatype Result<+R, +E> = Success(value: R) | Failure(error: E) {

    predicate IsFailure() {
      Failure?
    }

    function PropagateFailure<U>(): Result<U, E>
      requires Failure?
    {
      Failure(error)
    }

    function Extract(): R
      requires Success?
    {
      value
    }
  }
}
